=== FILE: README.md ===
# wfrcwf core, modelled in Dafny

This project models the two core components of wfrcwf.

The first is the front end of the workflow language (`src/wfrcwflib/parse.py`). It has these parts:
- the whitespace tokenizer `next_token`;
- the five-token connector grammar `{ input|output name ext }`;
- positional and optional argument lines;
- `step` and `workflow` paragraphs, chosen by their keyword;
- the blank-line paragraph splitter;
- comment and whitespace preprocessing.

The second is the syntax tree and the resolved workflow graph (`src/wfrcwflib/workflow.py`). It has these parts:
- connectors, arguments and steps, with their derived inputs and outputs;
- `UnresolvedWorkflow.resolve`;
- the `Workflow` object, with its mutable active-step set and reverse connection table `connections_in`;
- the queries `connections_out`, `inputs`, `outputs`, `dag`, `order` and `edges`.

Layout, one module per file:

- `wrappers.dfy` (`Wrappers`): `Option`, `Result`, `Outcome` and `Distinct`. It also has `MapResult`, which maps a fallible function over a list and stops at the first failure, with its lemmas.
- `lexer.dfy` (`Lexer`):
  - `NextToken`, with a declarative description (`IsTokenSplit`) that it is proved to meet and that determines it uniquely;
  - `Tokens`, the `str.split()` of a line;
  - `StripComment` and `StripWhitespace`.
- `ast.dfy` (`Ast`): `Connector` is one datatype with a `Direction` tag in place of the two subclasses. The module also has `Value`, `Argument`, `Step`, `Connection`, `UnresolvedWorkflow`, and the `inputs`/`outputs` collectors.
- `parser.dfy` (`Parser`): `ParseError` is a failure value, with one variant per message the parser raises.
  - The pure parsers are functions.
  - The looping parsers are methods: `ParseOptionalArgument`, `ParseStep` and `ParseWorkflow`. Each is proved equal to a specification function, and lemmas characterise those functions.
  - `ParseParagraph` is the keyword dispatch over those methods. Its function twin `ParagraphOf` is what the lemmas are about.
- `document.dfy` (`Document`): `SplitParagraphs`, `Parse` and `Preprocess` are methods with loops. `Paragraphs` specifies the splitter as a fold over the lines.
- `graph.dfy` (`Graph`): the workflow state as a value, and the operations on it.
  - The state is the active step set, the keys of `connections_in` in insertion order, and the table itself.
  - The operations are `Activated` (`_add_step`), `Connected` (`connect`), `Replayed` (the resolve loop) and `Resolved`.
  - The invariant `Covered` and lemmas about all four operations.
- `queries.dfy` (`Queries`): specification functions for the queries and their meaning lemmas. It also has a Kahn topological sort, `TopoSort`.
- `workflow.dfy` (`Workflows`):
  - `class Workflow`, whose fields `active`, `keys` and `connectionsIn` are updated in place by `AddStep` and `Connect`;
  - the queries as methods with loops, each proved against the functions of `Queries`;
  - `Resolve`, which builds a fresh `Workflow` and replays the connections.
- `render.dfy` (`Render`): writes values, arguments, steps, workflows and whole documents back as text. It proves that parsing the written text gives back what was written, for anything the language can express.
- `examples.dfy` (`Examples`): the concrete cases of `src/wfrcwflib/test/test_parse.py`, stated about the model.

Some behaviour of the code that is easy to misread:

- A connection line may have fewer than five tokens. The code fills each missing token with `""` and rejects only a sixth token (parse.py:100-106).
- `order` promises some topological order of `dag`, with no tie-break. The active steps are an unordered `set` (workflow.py:82), and the sort is `graphlib`'s.
- `parse` is a generator (parse.py:137-141), so earlier paragraphs are produced before a later one fails. `Document.Parse` returns either all definitions or the first failing paragraph's error.

## Model

| member | source | states |
|---|---|---|
| Lexer.NextTokenSplits | src/wfrcwflib/parse.py:10-18 | next_token splits at the first whitespace run. It returns ("", "") for blank text. Otherwise it returns a maximal non-whitespace run preceded only by whitespace, and the text after the whitespace that follows it |
| Lexer.NextTokenUnique | src/wfrcwflib/parse.py:10-18 | any split of that shape is the one next_token returns, so the description determines the result |
| Lexer.NextTokenOf | src/wfrcwflib/parse.py:10-18 | a word, then whitespace, then text starting at a token splits into exactly that word and that text |
| Lexer.NextToken | src/wfrcwflib/parse.py:10-18 | the remainder is no longer than the line; an empty token has an empty remainder; a token strictly shortens the line |
| Lexer.NextTokenPeels | src/wfrcwflib/parse.py:10-18 | next_token returns the first element of line.split() ("" if none), and its remainder splits into the other elements |
| Lexer.NextTokenRestEmpty | src/wfrcwflib/parse.py:10-18 | the remainder is empty exactly when the line holds at most one token |
| Lexer.TokensAreWords | src/wfrcwflib/parse.py:10-18 | every token is non-empty and free of whitespace |
| Lexer.TokensOfUnwords | src/wfrcwflib/parse.py:10-18 | splitting words joined by single spaces gives the words back |
| Lexer.StripComment | src/wfrcwflib/parse.py:143-145 | the result is the prefix of the line before the first '#': it holds no '#', and the line continues with '#' wherever the result stops short |
| Lexer.StripCommentIdempotent | src/wfrcwflib/parse.py:143-145 | stripping a comment twice changes nothing more |
| Lexer.StripWhitespace | src/wfrcwflib/parse.py:147-148 | the stripped line is empty or begins and ends with a non-whitespace character |
| Lexer.StripWhitespaceSplits | src/wfrcwflib/parse.py:147-148 | the line is whitespace, then the stripped line, then whitespace |
| Lexer.StripWhitespaceIdempotent | src/wfrcwflib/parse.py:147-148 | stripping twice strips nothing more |
| Ast.ArgumentConnectors | src/wfrcwflib/workflow.py:21-46 | a positional argument contributes at most one connector; every connector collected has the requested direction |
| Ast.ValueConnectorsMember | src/wfrcwflib/workflow.py:36-46 | a connector is collected exactly when it is among the values and has the requested direction |
| Ast.StepConnectorsAppend | src/wfrcwflib/workflow.py:54-64 | Step.inputs/outputs take the connectors argument by argument, in argument order |
| Ast.StepConnectorsMember | src/wfrcwflib/workflow.py:54-64 | a connector is among a step's inputs (outputs) exactly when some argument holds it as a value and its direction is input (output) |
| Ast.InputsOutputsPartition | src/wfrcwflib/workflow.py:54-64 | every connector value of a step is counted once, as an input or as an output |
| Parser.KindOf | src/wfrcwflib/parse.py:20-23 | exactly "input" and "output" are connector keywords, giving the input and the output direction |
| Parser.ParseConnector | src/wfrcwflib/parse.py:25-47 | on success the unconsumed text is strictly shorter than the line; every failure is one of the five connector errors |
| Parser.ParseConnectorTokens | src/wfrcwflib/parse.py:25-47 | succeeds iff there are at least five tokens: `{`, a connector keyword, two more, then `}`. The result is the connector with the keyword's direction and the text holding the remaining tokens. Each failing check gives its own error |
| Parser.ParseConnectorText | src/wfrcwflib/parse.py:25-47 | round trip: parsing a written connector followed by more text gives the connector and that text |
| Parser.ParseArgumentValue | src/wfrcwflib/parse.py:49-53 | the value is a connector exactly when the text starts with `{`; text not starting with `{` always succeeds; a value consumes input; failures are connector errors |
| Parser.ParsePositionalArgument | src/wfrcwflib/parse.py:55-59 | the result is positional; failures are connector errors or "only one positional argument per line" |
| Parser.ParsePositionalTokens | src/wfrcwflib/parse.py:55-59 | for a plain line: succeeds iff it has at most one token, and that token is the value. For a `{` line: succeeds iff the connector parses and is all there is (five tokens) |
| Parser.OptionalOf | src/wfrcwflib/parse.py:61-69 | fails with the flag error iff the first token does not start with `-`; on success the flag is that token; other failures are connector errors |
| Parser.ParseOptionalArgument | src/wfrcwflib/parse.py:61-69 | the while loop returns what OptionalOf specifies. Each turn moves one value from the text still to parse to the list, and each turn consumes input |
| Parser.ValuesOfPlain | src/wfrcwflib/parse.py:66-68 | without connectors, the values are exactly the remaining tokens as plain words, in order |
| Parser.OptionalOfPlain | src/wfrcwflib/parse.py:61-69 | on a line without connectors, the flag is the first token and the values are all later tokens, in order, possibly none |
| Parser.ArgumentOf | src/wfrcwflib/parse.py:84-87 | a parsed argument is optional exactly when its line starts with `-` |
| Parser.ParseStep | src/wfrcwflib/parse.py:71-89 | the loop over argument lines returns what StepOf specifies |
| Parser.StepOfFails | src/wfrcwflib/parse.py:71-89 | fails when the prog line is missing, when name or prog does not stand alone, or with an argument line's error; succeeds exactly when none of these happens |
| Parser.StepOfSucceeds | src/wfrcwflib/parse.py:71-89 | on success name and prog are the lines' tokens. There is exactly one argument per remaining line, in order, each one what its line parses to |
| Parser.ConnectionOfTokens | src/wfrcwflib/parse.py:100-107 | a connection line fails iff it has more than five tokens. The connection takes tokens 1, 2, 4 and 5, with "" for a missing one, and the arrow token is unchecked |
| Parser.ParseWorkflow | src/wfrcwflib/parse.py:91-108 | the loop over connection lines returns what WorkflowOf specifies |
| Parser.WorkflowOfFails | src/wfrcwflib/parse.py:91-108 | fails only for an empty paragraph, a name that does not stand alone, or a line of more than five tokens; succeeds exactly otherwise |
| Parser.WorkflowOfSucceeds | src/wfrcwflib/parse.py:91-108 | on success the name is the first line's token and there is one connection per later line, in order |
| Parser.ConnectionsOfSpec | src/wfrcwflib/parse.py:99-107 | the connection lines taken together succeed iff none has more than five tokens, and then give one connection per line |
| Parser.ParagraphOf | src/wfrcwflib/parse.py:115-124 | an empty paragraph fails with MissingLine. A parsed paragraph is a step definition exactly when its first token is `step`, and a workflow definition exactly when it is `workflow` |
| Parser.ParagraphKeyword | src/wfrcwflib/parse.py:115-124 | a paragraph fails with "invalid keyword" exactly when its first token is neither `step` nor `workflow` |
| Parser.ParagraphOfStep | src/wfrcwflib/parse.py:115-124 | `step NAME` on the first line parses like `NAME` alone, through the step parser. A bare `step` gives the name "" |
| Parser.ParagraphOfWorkflow | src/wfrcwflib/parse.py:115-124 | `workflow NAME` on the first line parses like `NAME` alone, through the workflow parser. A bare `workflow` gives the name "" |
| Render.ValueTextParses | src/wfrcwflib/parse.py:49-53 | parse_argument_value reads back a written word or connector, and leaves exactly the text after it |
| Render.ValuesOfText | src/wfrcwflib/parse.py:61-69 | values written with single spaces between them, words and connectors mixed, parse back to the same values in the same order |
| Render.OptionalOfText | src/wfrcwflib/parse.py:61-69 | round trip: a flag followed by values, connectors among them, parses back to that optional argument |
| Render.ArgumentOfText | src/wfrcwflib/parse.py:83-88 | round trip: a written argument line parses back to the argument written, positional or optional |
| Render.StepOfText | src/wfrcwflib/parse.py:71-89 | round trip: a written step paragraph parses back to the same name, prog and arguments, in order |
| Render.ConnectionOfText | src/wfrcwflib/parse.py:100-107 | round trip: a connection line `from out -> to in` parses back to the connection |
| Render.WorkflowOfText | src/wfrcwflib/parse.py:91-108 | round trip: a written workflow paragraph parses back to its name and connections, in order |
| Render.ParagraphOfText | src/wfrcwflib/parse.py:115-124 | round trip: a written paragraph, keyword included, parses back to the definition |
| Render.DocumentOfText | src/wfrcwflib/parse.py:126-141 | round trip: split_paragraphs recovers the written paragraphs of a document and each parses back to its definition, so parse returns exactly the definitions written |
| Document.SplitParagraphs | src/wfrcwflib/parse.py:126-135 | the loop with its paragraph accumulator returns the fold Paragraphs specifies |
| Document.FoldInvariant | src/wfrcwflib/parse.py:126-135 | what the loop keeps true: the emitted paragraphs plus the current one hold the non-empty lines seen so far, in order |
| Document.FoldShapes | src/wfrcwflib/parse.py:126-135 | the loop emits only non-empty paragraphs and gathers only non-empty lines |
| Document.ParagraphsSpec | src/wfrcwflib/parse.py:126-135 | no emitted paragraph is empty or holds an empty line, and the paragraphs concatenated are exactly the non-empty input lines, in order |
| Document.BlankSplits | src/wfrcwflib/parse.py:126-135 | every blank line is a paragraph break: the paragraphs of `a + [""] + b` are those of `a` followed by those of `b` |
| Document.ParagraphsOfLines | src/wfrcwflib/parse.py:126-135 | lines without a blank among them form exactly one paragraph, or none when there are no lines. With BlankSplits this fixes every break point |
| Document.BlankRunCollapses | src/wfrcwflib/parse.py:126-135 | two blank lines in a row break paragraphs exactly as one does, so a run of blank lines is one separator |
| Document.OuterBlanks | src/wfrcwflib/parse.py:126-135 | a blank line at the start or at the end of the document changes nothing |
| Document.ParagraphsOfJoin | src/wfrcwflib/parse.py:126-135 | round trip: splitting paragraphs written with one blank line between them gives those paragraphs back |
| Document.Parse | src/wfrcwflib/parse.py:137-141 | succeeds iff every paragraph parses, giving one definition per paragraph in order; otherwise gives the first failing paragraph's error |
| Document.Preprocess | src/wfrcwflib/parse.py:150-154 | one output line per input line, each the comment-stripped and then whitespace-stripped input. No output holds '#', and none begins or ends with whitespace |
| Graph.Put | src/wfrcwflib/workflow.py:90 | assigning a key of connections_in updates its value. A new key goes last in the key order; an existing key keeps its place. The key order stays duplicate-free and lists exactly the table's keys (WellFormed) |
| Graph.SeedAt | src/wfrcwflib/workflow.py:95-96 | seeding adds exactly the step's declared input ports, each unresolved, and keeps every other entry |
| Graph.ActivatedSpec | src/wfrcwflib/workflow.py:92-97 | _add_step fails with a lookup error iff the step is not in the registry. An active step changes nothing. A new one becomes active, old entries keep their values, new entries are None and are declared inputs of the new step, and Covered is preserved |
| Graph.ConnectedSpec | src/wfrcwflib/workflow.py:87-90 | connect preserves Covered. It fails iff either step is missing from the registry, naming the first missing one |
| Graph.ConnectedGrows | src/wfrcwflib/workflow.py:87-90 | after a successful connect both steps are active and nothing else is activated |
| Graph.ConnectedAt | src/wfrcwflib/workflow.py:87-90 | after connect, connections_in[(t, ti)] == (f, fo); every other existing entry is unchanged and every new entry is unresolved |
| Graph.ReplayedError | src/wfrcwflib/workflow.py:71-75 | replaying connections keeps Covered and fails with the first step name, in document order, missing from the registry |
| Graph.ReplayedActive | src/wfrcwflib/workflow.py:71-75 | after a successful replay the active steps are exactly the steps named by the connections |
| Graph.ReplayedLinks | src/wfrcwflib/workflow.py:71-75 | after a replay each targeted port holds its last writer (last write wins); the other entries keep their value or are unresolved |
| Graph.WriterSpec | src/wfrcwflib/workflow.py:73-74 | the last writer of a port is the source of the last connection targeting it, and there is none when no connection targets it |
| Graph.MissingNone | src/wfrcwflib/workflow.py:71-75 | no step is missing exactly when every step named by the connections is in the registry |
| Graph.ResolvedSpec | src/wfrcwflib/workflow.py:71-75 | resolve succeeds iff every named step is registered, otherwise naming the first missing one. On success the graph is Covered, its active steps are exactly the named steps, and each input holds its last writer or is unresolved |
| Graph.ResolvedEntries | src/wfrcwflib/workflow.py:71-75 | the resolved connections_in has an entry exactly for each port some connection writes and each declared input of a step the connections name |
| Queries.InputsSpec | src/wfrcwflib/workflow.py:111-115 | inputs are exactly the keys of connections_in mapped to None, each once |
| Queries.ResolvedInputs | src/wfrcwflib/workflow.py:71-75 | the inputs of a resolved workflow are exactly the declared inputs of the steps named in its connections that no connection writes |
| Queries.OutSpecFails | src/wfrcwflib/workflow.py:99-109 | connections_out fails iff some resolved input's producer port is not a declared output of an active step, and names such a port |
| Queries.ConsumerMapSpec | src/wfrcwflib/workflow.py:99-109 | each declared output maps to the inputs resolved to it, each listed once |
| Queries.OutputsSpec | src/wfrcwflib/workflow.py:117-121 | outputs are exactly the declared outputs of active steps that no input is resolved to |
| Queries.DagMeaning | src/wfrcwflib/workflow.py:123-132 | dag fails iff some resolved input's step is inactive. Otherwise it maps each active step to exactly the steps producing one of its resolved inputs |
| Queries.DagCovered | src/wfrcwflib/workflow.py:123-132 | on a graph where the invariant Covered holds, dag never fails |
| Queries.EdgesUpToMember | src/wfrcwflib/workflow.py:139-145 | a pair is an edge exactly when some resolved entry of connections_in has that producer step and that consumer step |
| Queries.EdgesSpec | src/wfrcwflib/workflow.py:139-145 | edges has exactly one (producer step, consumer step) pair per resolved entry of connections_in, in dict order: the j-th pair comes from the j-th resolved entry, and each entry is used once, so duplicate pairs are kept |
| Queries.EdgesMatchDag | src/wfrcwflib/workflow.py:139-145 | (a, b) is an edge exactly when a is among b's producers in dag |
| Queries.TopoSort | src/wfrcwflib/workflow.py:134-137 | the sort returns an order listing every node of the dag once, each after all its predecessors; or it fails with a non-empty node set each member of which has a predecessor in the set |
| Queries.StuckHasNoOrder | src/wfrcwflib/workflow.py:134-137 | a set reported on failure rules out every topological order, so the sort fails only when none exists |
| Queries.DagNodesActive | src/wfrcwflib/workflow.py:123-137 | on a Covered graph the nodes the order lists are exactly the active steps |
| Workflows.Workflow.constructor | src/wfrcwflib/workflow.py:79-85 | a new workflow has the given name and registry, no active steps and an empty connection table, and it satisfies the invariant Sound |
| Workflows.Workflow.AddStep | src/wfrcwflib/workflow.py:92-97 | the in-place update is the one Activated describes; on a lookup failure the state is unchanged; the invariant Sound (Covered on a registry keyed by step name) is kept |
| Workflows.Workflow.Connect | src/wfrcwflib/workflow.py:87-90 | the in-place update and the error are the ones Connected describes; Sound is kept, even when the call fails halfway |
| Workflows.Workflow.Inputs | src/wfrcwflib/workflow.py:111-115 | the loop yields exactly the unresolved keys of connectionsIn, each once, in key order |
| Workflows.Workflow.ConnectionsOut | src/wfrcwflib/workflow.py:99-109 | fails with a lookup error naming an active step missing from the registry; otherwise the two loops compute OutSpec |
| Workflows.Workflow.Outputs | src/wfrcwflib/workflow.py:117-121 | propagates connections_out's failure. Otherwise the result is exactly the declared outputs of active steps that no input is resolved to |
| Workflows.Workflow.Dag | src/wfrcwflib/workflow.py:123-132 | the loop computes DagSpec of the current state. On a Sound workflow with a keyed registry, dag never fails |
| Workflows.Workflow.Order | src/wfrcwflib/workflow.py:134-137 | propagates dag's failure. Otherwise it returns a topological order of dag, or a stuck set on a cycle. On a Sound workflow with a keyed registry, dag's nodes are exactly the active steps |
| Workflows.Workflow.Edges | src/wfrcwflib/workflow.py:139-145 | the loop yields EdgesOf. When dag succeeds, its pairs are exactly dag's (producer, consumer) relation |
| Workflows.Resolve | src/wfrcwflib/workflow.py:71-75 | a fresh Workflow with the given name and registry, holding the Resolved graph and satisfying Sound; or Resolved's error, with no workflow returned |
| Examples.NextTokenCases | src/wfrcwflib/test/test_parse.py:17-22 | the four next_token cases of the tests |
| Examples.ParseConnectorInput | src/wfrcwflib/test/test_parse.py:25-26 | `{ input a b }` parses to an input connector a/b with nothing left |
| Examples.ParseConnectorOutput | src/wfrcwflib/test/test_parse.py:27-28 | `{ output 1 . } g-- -f` parses to an output connector 1/. leaving `g-- -f` |
| Examples.ParseConnectorUnspaced | src/wfrcwflib/test/test_parse.py:29-30 | `{input a b}` fails |
| Examples.ArgumentValuePlain | src/wfrcwflib/test/test_parse.py:33-34 | a plain value leaves the connector text after it |
| Examples.ArgumentValuePort | src/wfrcwflib/test/test_parse.py:35-36 | a connector value leaves the plain text after it |
| Examples.PositionalPlain | src/wfrcwflib/test/test_parse.py:39-40 | `myfile.txt` is a positional text argument |
| Examples.PositionalPort | src/wfrcwflib/test/test_parse.py:41-42 | `{ input a b }` is a positional connector argument |
| Examples.PositionalExtra | src/wfrcwflib/test/test_parse.py:43-44 | `myfile.txt b` fails: only one positional argument per line |
| Examples.OptionalBare | src/wfrcwflib/test/test_parse.py:47 | `-b` is an optional argument without values |
| Examples.OptionalValues | src/wfrcwflib/test/test_parse.py:48-49 | `--hello there c` has flag `--hello` and values `there`, `c` |
| Examples.SplitParagraphsOneBlank | src/wfrcwflib/test/test_parse.py:78-79 | `a b _ c d` (with `_` a blank line) splits into `[a b]` and `[c d]` |
| Examples.SplitParagraphsTrailing | src/wfrcwflib/test/test_parse.py:80-81 | `a _ c _ _` splits into `[a]` and `[c]`: trailing blank lines are dropped |
| Examples.SplitParagraphsBlankRun | src/wfrcwflib/test/test_parse.py:82-83 | `a _ _ _ c d` splits into `[a]` and `[c d]`: a run of blank lines is one break |
| Examples.OptionalOfWords | src/wfrcwflib/parse.py:61-69 | a flag followed by plain words separated by single spaces parses to that flag and those words, in order |

## Left out

- Python generators (`parse`, `preprocess`, `split_paragraphs`, `inputs`, `outputs`, `edges`) are modelled as functions and methods over whole sequences. Laziness, and the paragraphs `parse` yields before a failing one, are not modelled.
- Whitespace is the ASCII set `str.split()`/`str.strip()` recognise: space, \t, \n, \v, \f, \r and \x1c-\x1f. Unicode whitespace is not modelled.
- Python's `StopIteration` (parse.py:74,78,94) and `IndexError` (parse.py:117) on paragraphs too short to have a name or prog line become the error `MissingLine`. When such a `StopIteration` comes from `parse_step` or `parse_workflow` called through the `parse` generator, Python re-raises it as `RuntimeError` (PEP 479). The model does not make that distinction.
- `KeyError` becomes `UnknownStep` when a registry lookup fails, and also when `dag` indexes `graph[dest_step]` for an inactive step (workflow.py:131). It becomes `UnknownOutput` when `connections_out` meets a producer port nobody declared. `graphlib.CycleError` becomes `Cycle`.
- Queries.TopoSort: reports a set of steps, each with a dependency inside the set, in place of graphlib's cycle path. graphlib's tie-breaking is not modelled either, since the active steps are an unordered set.
- Graph.ActivatedSpec, Graph.ConnectedSpec, Graph.ResolvedSpec: their lemmas assume the registry maps each name to a step of that name. `_add_step` activates `step.name`, not the name it looked up (workflow.py:94-97). `Activated` itself follows the code for any registry.
- Workflows.Workflow.Outputs: returns a set of ports, not a sequence in dictionary order.
- `connect` does not check that `from_output`/`to_input` are declared ports (workflow.py:87-90), and neither does the model. An undeclared producer port surfaces only in `connections_out`.
- The debug `print` inside `dag` (workflow.py:127) is a console side effect and is not modelled.
- Workflows.Workflow.Dag, Workflows.Workflow.ConnectionsOut, Workflows.Workflow.Outputs, Workflows.Workflow.Edges, Workflows.Workflow.Inputs: specified against a value snapshot (`State()`) of the object's fields.
- Render.StepOfText, Render.WorkflowOfText, Render.DocumentOfText: the round trips cover what the language can write. Names, programs, flags, words and connector fields are single non-empty words. A plain value does not start with `{`, a positional plain value does not start with `-`, and a flag does. Other values cannot be written as text that parses back to them.
- Examples: the test_parse.py cases for steps, paragraphs, `parse`, `strip_comment` and `preprocess` are covered only by the general lemmas, not as concrete cases.
- `src/wfrcwflib/command.py`, `src/wfrcwflib/file.py`, `src/wfrcwflib/state.py` and `trywfr.py` are not part of this model. They are runner plumbing, filesystem scanning, an abandoned state machine and a demo script.

=== FILE: ast.dfy ===
/** The syntax tree of the workflow language (src/wfrcwflib/workflow.py:6-69):
    connectors, arguments, steps and unresolved workflows, and the input and
    output connectors a step declares. */
module Ast {

  /** InputConnector and OutputConnector, as a tag on one connector type. */
  datatype Direction = In | Out

  /** A typed file slot `{ input|output name ext }`. */
  datatype Connector = Connector(dir: Direction, name: string, ext: string)

  /** An argument value: a plain word or a connector. */
  datatype Value = Text(text: string) | Port(connector: Connector)

  datatype Argument =
    | Positional(value: Value)
    | Optional(flag: string, values: seq<Value>)

  datatype Step = Step(name: string, prog: string, args: seq<Argument>)

  /** (from_step, from_output, to_step, to_input) */
  datatype Connection = Connection(fromStep: string, fromOutput: string, toStep: string, toInput: string)

  datatype UnresolvedWorkflow = UnresolvedWorkflow(name: string, connections: seq<Connection>)

  /** What one paragraph of a document parses to. */
  datatype Definition = StepDef(step: Step) | WorkflowDef(workflow: UnresolvedWorkflow)

  /** The connectors of direction d among vs, in order. */
  function ValueConnectors(vs: seq<Value>, d: Direction): (cs: seq<Connector>)
    ensures |cs| <= |vs|
    ensures forall i :: 0 <= i < |cs| ==> cs[i].dir == d
  {
    if vs == [] then []
    else
      var rest := ValueConnectors(vs[1..], d);
      if vs[0].Port? && vs[0].connector.dir == d then [vs[0].connector] + rest else rest
  }

  /** The values an argument carries. */
  function ArgValues(a: Argument): seq<Value> {
    match a
    case Positional(v) => [v]
    case Optional(_, vs) => vs
  }

  /** PositionalArgument.inputs/outputs and OptionalArgument.inputs/outputs
      (workflow.py:21-46). */
  function ArgumentConnectors(a: Argument, d: Direction): (cs: seq<Connector>)
    ensures a.Positional? ==> |cs| <= 1
    ensures forall i :: 0 <= i < |cs| ==> cs[i].dir == d
  {
    ValueConnectors(ArgValues(a), d)
  }

  /** Step.inputs/outputs: the arguments' connectors of direction d, argument by
      argument (workflow.py:54-64). */
  function StepConnectors(args: seq<Argument>, d: Direction): (cs: seq<Connector>)
    ensures forall i :: 0 <= i < |cs| ==> cs[i].dir == d
  {
    if args == [] then [] else ArgumentConnectors(args[0], d) + StepConnectors(args[1..], d)
  }

  function Inputs(s: Step): seq<Connector> {
    StepConnectors(s.args, In)
  }

  function Outputs(s: Step): seq<Connector> {
    StepConnectors(s.args, Out)
  }

  /** The names of a step's inputs, in order: the ports _add_step seeds. */
  function InputNames(s: Step): (ns: seq<string>)
    ensures |ns| == |Inputs(s)|
    ensures forall i :: 0 <= i < |ns| ==> ns[i] == Inputs(s)[i].name
  {
    var cs := Inputs(s);
    seq(|cs|, i requires 0 <= i < |cs| => cs[i].name)
  }

  /** A connector is collected exactly when it occurs among the values with the
      requested direction. */
  lemma {:induction false} ValueConnectorsMember(vs: seq<Value>, d: Direction, c: Connector)
    ensures c in ValueConnectors(vs, d) <==> Port(c) in vs && c.dir == d
  {
    if vs != [] {
      ValueConnectorsMember(vs[1..], d, c);
      assert vs == [vs[0]] + vs[1..];
    }
  }

  /** Collecting is compatible with concatenation: the connectors come out in
      argument order. */
  lemma {:induction false} StepConnectorsAppend(a: seq<Argument>, b: seq<Argument>, d: Direction)
    ensures StepConnectors(a + b, d) == StepConnectors(a, d) + StepConnectors(b, d)
  {
    if a != [] {
      assert (a + b)[1..] == a[1..] + b;
      StepConnectorsAppend(a[1..], b, d);
    } else {
      assert a + b == b;
    }
  }

  /** The number of connector values among vs. */
  function PortCount(vs: seq<Value>): nat {
    if vs == [] then 0 else (if vs[0].Port? then 1 else 0) + PortCount(vs[1..])
  }

  function StepPortCount(args: seq<Argument>): nat {
    if args == [] then 0 else PortCount(ArgValues(args[0])) + StepPortCount(args[1..])
  }

  lemma {:induction false} ValueConnectorsSplit(vs: seq<Value>)
    ensures |ValueConnectors(vs, In)| + |ValueConnectors(vs, Out)| == PortCount(vs)
  {
    if vs != [] {
      ValueConnectorsSplit(vs[1..]);
    }
  }

  /** Every connector value of a step is an input or an output, and only one of
      the two. */
  lemma {:induction false} InputsOutputsPartition(s: Step)
    ensures |Inputs(s)| + |Outputs(s)| == StepPortCount(s.args)
  {
    InputsOutputsPartitionArgs(s.args);
  }

  lemma {:induction false} InputsOutputsPartitionArgs(args: seq<Argument>)
    ensures |StepConnectors(args, In)| + |StepConnectors(args, Out)| == StepPortCount(args)
  {
    if args != [] {
      InputsOutputsPartitionArgs(args[1..]);
      ValueConnectorsSplit(ArgValues(args[0]));
    }
  }

  /** A connector is among a step's connectors of direction d exactly when some
      argument holds it as a value and its direction is d. */
  lemma {:induction false} StepConnectorsMember(args: seq<Argument>, d: Direction, c: Connector)
    ensures c in StepConnectors(args, d) <==>
      c.dir == d && exists i :: 0 <= i < |args| && Port(c) in ArgValues(args[i])
  {
    if args != [] {
      StepConnectorsMember(args[1..], d, c);
      ValueConnectorsMember(ArgValues(args[0]), d, c);
      if c.dir == d && Port(c) in ArgValues(args[0]) {
        assert c in ArgumentConnectors(args[0], d);
      }
      if exists i :: 0 <= i < |args[1..]| && Port(c) in ArgValues(args[1..][i]) {
        var i :| 0 <= i < |args[1..]| && Port(c) in ArgValues(args[1..][i]);
        assert args[i + 1] == args[1..][i];
      }
      if exists i :: 0 <= i < |args| && Port(c) in ArgValues(args[i]) {
        var i :| 0 <= i < |args| && Port(c) in ArgValues(args[i]);
        if i > 0 {
          assert args[1..][i - 1] == args[i];
        }
      }
    }
  }

}

=== FILE: document.dfy ===
/** Whole documents (src/wfrcwflib/parse.py:126-154): comment and whitespace
    preprocessing, splitting into blank-line separated paragraphs, and parsing
    every paragraph. */
module Document {
  import opened Wrappers
  import opened Lexer
  import opened Ast
  import opened Parser

  /** The state of split_paragraphs' loop: the paragraphs already emitted and
      the one being gathered. */
  datatype Splitter = Splitter(done: seq<seq<string>>, current: seq<string>)

  /** One turn of split_paragraphs' loop: a non-empty line joins the current
      paragraph; an empty line closes it, if it has any lines. */
  function Feed(s: Splitter, line: string): Splitter {
    if line != [] then Splitter(s.done, s.current + [line])
    else if s.current != [] then Splitter(s.done + [s.current], [])
    else s
  }

  /** The loop's state after the given lines. */
  function Fold(s: Splitter, lines: seq<string>): Splitter
    decreases |lines|
  {
    if lines == [] then s else Feed(Fold(s, lines[..|lines| - 1]), lines[|lines| - 1])
  }

  /** What split_paragraphs yields (parse.py:126-135): the paragraphs closed
      by blank lines, then the last one if it is not empty. */
  function Paragraphs(lines: seq<string>): seq<seq<string>> {
    var s := Fold(Splitter([], []), lines);
    if s.current != [] then s.done + [s.current] else s.done
  }

  /** split_paragraphs, gathering lines and flushing at each blank line. */
  method SplitParagraphs(lines: seq<string>) returns (ps: seq<seq<string>>)
    ensures ps == Paragraphs(lines)
  {
    var done: seq<seq<string>> := [];
    var paragraph: seq<string> := [];
    for i := 0 to |lines|
      invariant Splitter(done, paragraph) == Fold(Splitter([], []), lines[..i])
    {
      assert lines[..i + 1][..i] == lines[..i];
      var line := lines[i];
      if line != [] {
        paragraph := paragraph + [line];
      } else if paragraph != [] {
        done := done + [paragraph];
        paragraph := [];
      }
    }
    assert lines[..|lines|] == lines;
    if paragraph != [] {
      done := done + [paragraph];
    }
    return done;
  }

  /** The lines of a sequence of paragraphs, one after the other. */
  function Flatten(ps: seq<seq<string>>): seq<string> {
    if ps == [] then [] else Flatten(ps[..|ps| - 1]) + ps[|ps| - 1]
  }

  /** The non-empty lines, in order. */
  function NonBlank(lines: seq<string>): seq<string> {
    if lines == [] then []
    else NonBlank(lines[..|lines| - 1]) + (if lines[|lines| - 1] != [] then [lines[|lines| - 1]] else [])
  }

  /** Lines none of which is empty. */
  predicate NoBlank(p: seq<string>) {
    forall i :: 0 <= i < |p| ==> p[i] != []
  }

  /** A paragraph as split_paragraphs emits it: some lines, none of them empty. */
  predicate GoodParagraph(p: seq<string>) {
    p != [] && NoBlank(p)
  }

  /** Paragraphs all as split_paragraphs emits them. */
  predicate AllGood(ps: seq<seq<string>>) {
    forall i :: 0 <= i < |ps| ==> GoodParagraph(ps[i])
  }

  /** What the loop keeps true: the emitted and the current paragraphs hold the
      non-empty lines seen so far. */
  lemma {:induction false} FoldInvariant(lines: seq<string>)
    ensures var s := Fold(Splitter([], []), lines);
      Flatten(s.done) + s.current == NonBlank(lines)
    decreases |lines|
  {
    if lines != [] {
      var init := lines[..|lines| - 1];
      var line := lines[|lines| - 1];
      FoldInvariant(init);
      var s := Fold(Splitter([], []), init);
      var t := Fold(Splitter([], []), lines);
      assert t == Feed(s, line);
      if line != [] {
        assert NonBlank(lines) == NonBlank(init) + [line];
        assert t.done == s.done;
        assert Flatten(t.done) + t.current == Flatten(s.done) + s.current + [line];
      } else if s.current != [] {
        assert NonBlank(lines) == NonBlank(init);
        FlattenSnoc(s.done, s.current);
      } else {
        assert NonBlank(lines) == NonBlank(init);
      }
    }
  }

  /** The loop emits only complete paragraphs and gathers only non-empty lines. */
  lemma {:induction false} FoldShapes(lines: seq<string>)
    ensures var s := Fold(Splitter([], []), lines);
      AllGood(s.done) && NoBlank(s.current)
    decreases |lines|
  {
    if lines != [] {
      var init := lines[..|lines| - 1];
      var line := lines[|lines| - 1];
      FoldShapes(init);
      var s := Fold(Splitter([], []), init);
      if line != [] {
        NoBlankSnoc(s.current, line);
      } else if s.current != [] {
        AllGoodSnoc(s.done, s.current);
      }
    }
  }

  lemma NoBlankSnoc(p: seq<string>, line: string)
    requires NoBlank(p) && line != []
    ensures NoBlank(p + [line])
  {
  }

  lemma AllGoodSnoc(ps: seq<seq<string>>, p: seq<string>)
    requires AllGood(ps) && GoodParagraph(p)
    ensures AllGood(ps + [p])
  {
  }

  lemma FlattenSnoc(ps: seq<seq<string>>, p: seq<string>)
    ensures Flatten(ps + [p]) == Flatten(ps) + p
  {
  }

  /** split_paragraphs never emits an empty paragraph or an empty line, and its
      paragraphs hold exactly the non-empty input lines, in order. */
  lemma ParagraphsSpec(lines: seq<string>)
    ensures AllGood(Paragraphs(lines))
    ensures Flatten(Paragraphs(lines)) == NonBlank(lines)
  {
    FoldInvariant(lines);
    FoldShapes(lines);
    var s := Fold(Splitter([], []), lines);
    if s.current != [] {
      FlattenSnoc(s.done, s.current);
      AllGoodSnoc(s.done, s.current);
    }
  }

  /** Lines separated by one blank line each: the text of the paragraphs ps. */
  function Join(ps: seq<seq<string>>): seq<string> {
    if ps == [] then []
    else if |ps| == 1 then ps[0]
    else Join(ps[..|ps| - 1]) + [""] + ps[|ps| - 1]
  }

  lemma {:induction false} FoldAppend(s: Splitter, a: seq<string>, b: seq<string>)
    ensures Fold(s, a + b) == Fold(Fold(s, a), b)
    decreases |b|
  {
    if b == [] {
      assert a + b == a;
    } else {
      assert (a + b)[..|a + b| - 1] == a + b[..|b| - 1];
      FoldAppend(s, a, b[..|b| - 1]);
    }
  }

  /** Non-empty lines all join the current paragraph. */
  lemma {:induction false} FoldLines(s: Splitter, p: seq<string>)
    requires NoBlank(p)
    ensures Fold(s, p) == Splitter(s.done, s.current + p)
    decreases |p|
  {
    if p == [] {
      assert s.current + p == s.current;
    } else {
      FoldLines(s, p[..|p| - 1]);
      assert s.current + p[..|p| - 1] + [p[|p| - 1]] == s.current + p;
    }
  }

  lemma {:induction false} FoldJoin(ps: seq<seq<string>>)
    requires ps != []
    requires AllGood(ps)
    ensures Fold(Splitter([], []), Join(ps)) == Splitter(ps[..|ps| - 1], ps[|ps| - 1])
    decreases |ps|
  {
    var empty := Splitter([], []);
    if |ps| == 1 {
      FoldLines(empty, ps[0]);
    } else {
      var init := ps[..|ps| - 1];
      var last := ps[|ps| - 1];
      assert AllGood(init) by {
        assert forall i :: 0 <= i < |init| ==> init[i] == ps[i];
      }
      FoldJoin(init);
      var s1 := Splitter(init[..|init| - 1], init[|init| - 1]);
      FoldAppend(empty, Join(init) + [""], last);
      FoldAppend(empty, Join(init), [""]);
      FoldBlank(s1);
      InitLast(init);
      FoldLines(Splitter(init, []), last);
    }
  }

  /** A blank line closes the paragraph being gathered. */
  lemma FoldBlank(s: Splitter)
    requires s.current != []
    ensures Fold(s, [""]) == Splitter(s.done + [s.current], [])
  {
  }

  /** A non-empty sequence is its front followed by its last element. */
  lemma InitLast<T>(s: seq<T>)
    requires s != []
    ensures s[..|s| - 1] + [s[|s| - 1]] == s
  {
  }

  /** Splitting the text of well-formed paragraphs gives those paragraphs back. */
  lemma ParagraphsOfJoin(ps: seq<seq<string>>)
    requires AllGood(ps)
    ensures Paragraphs(Join(ps)) == ps
  {
    if ps != [] {
      FoldJoin(ps);
      var last := ps[|ps| - 1];
      assert GoodParagraph(last);
      assert Fold(Splitter([], []), Join(ps)) == Splitter(ps[..|ps| - 1], last);
      InitLast(ps);
    }
  }

  /** The loop run from an earlier state with nothing gathered: the paragraphs
      emitted before stay in front of those it emits from scratch. */
  lemma {:induction false} FoldAfter(done: seq<seq<string>>, b: seq<string>)
    ensures var t := Fold(Splitter([], []), b);
      Fold(Splitter(done, []), b) == Splitter(done + t.done, t.current)
    decreases |b|
  {
    if b == [] {
      assert done + [] == done;
    } else {
      FoldAfter(done, b[..|b| - 1]);
      var t := Fold(Splitter([], []), b[..|b| - 1]);
      assert done + (t.done + [t.current]) == done + t.done + [t.current];
    }
  }

  /** Every blank line is a paragraph break: the lines before it and the lines
      after it are split on their own, and the results are put one after the
      other. */
  lemma BlankSplits(a: seq<string>, b: seq<string>)
    ensures Paragraphs(a + [""] + b) == Paragraphs(a) + Paragraphs(b)
  {
    var empty := Splitter([], []);
    FoldAppend(empty, a + [""], b);
    FoldAppend(empty, a, [""]);
    assert [""][..0] == [];
    assert Fold(empty, a + [""]) == Splitter(Paragraphs(a), []);
    FoldAfter(Paragraphs(a), b);
    var t := Fold(empty, b);
    if t.current != [] {
      assert Paragraphs(a) + t.done + [t.current] == Paragraphs(a) + (t.done + [t.current]);
    }
  }

  /** Lines with no blank among them form one paragraph, or none when there
      are no lines. */
  lemma ParagraphsOfLines(p: seq<string>)
    requires NoBlank(p)
    ensures Paragraphs(p) == if p == [] then [] else [p]
  {
    FoldLines(Splitter([], []), p);
    assert [] + p == p;
  }

  /** A run of blank lines breaks paragraphs as one blank line does. */
  lemma BlankRunCollapses(a: seq<string>, b: seq<string>)
    ensures Paragraphs(a + ["", ""] + b) == Paragraphs(a + [""] + b)
  {
    assert a + ["", ""] + b == a + [""] + ([""] + b);
    BlankSplits(a, [""] + b);
    BlankSplits([], b);
    BlankSplits(a, b);
    assert [] + [""] + b == [""] + b;
    ParagraphsOfLines([]);
  }

  /** Blank lines at the start or the end of a document are dropped. */
  lemma OuterBlanks(b: seq<string>)
    ensures Paragraphs([""] + b) == Paragraphs(b)
    ensures Paragraphs(b + [""]) == Paragraphs(b)
  {
    ParagraphsOfLines([]);
    BlankSplits([], b);
    assert [] + [""] + b == [""] + b;
    BlankSplits(b, []);
    assert b + [""] + [] == b + [""];
    assert Paragraphs(b) + [] == Paragraphs(b);
  }

  /** What parse returns (parse.py:137-141), taken over the whole document:
      the definitions of all paragraphs, or the first failing paragraph's error. */
  method Parse(lines: seq<string>) returns (r: Result<seq<Definition>, ParseError>)
    ensures var ps := Paragraphs(lines);
      && (r.Success? <==> forall i :: 0 <= i < |ps| ==> ParagraphOf(ps[i]).Success?)
      && (r.Success? ==> |r.value| == |ps| && forall i :: 0 <= i < |ps| ==> ParagraphOf(ps[i]) == Success(r.value[i]))
      && (r.Failure? ==> exists k :: (0 <= k < |ps| && ParagraphOf(ps[k]) == Failure(r.error)
            && forall i :: 0 <= i < k ==> ParagraphOf(ps[i]).Success?))
  {
    var paragraphs := SplitParagraphs(lines);
    MapResultSpec(paragraphs, ParagraphOf);
    var defs: seq<Definition> := [];
    for i := 0 to |paragraphs|
      invariant MapResult(paragraphs[..i], ParagraphOf) == Success(defs)
    {
      var d := ParseParagraph(paragraphs[i]);
      MapResultStep(paragraphs, i, ParagraphOf);
      if d.Failure? {
        MapResultPrefixFailure(paragraphs, i + 1, ParagraphOf);
        return Failure(d.error);
      }
      defs := defs + [d.value];
    }
    assert paragraphs[..|paragraphs|] == paragraphs;
    return Success(defs);
  }

  /** preprocess (parse.py:150-154): one output line per input line, with the
      comment cut off and the surrounding whitespace stripped. */
  method Preprocess(lines: seq<string>) returns (out: seq<string>)
    ensures |out| == |lines|
    ensures forall i :: 0 <= i < |lines| ==> out[i] == StripWhitespace(StripComment(lines[i]))
    ensures forall i :: 0 <= i < |out| ==> '#' !in out[i]
    ensures forall i :: 0 <= i < |out| ==> out[i] == [] || (!IsSpace(out[i][0]) && !IsSpace(out[i][|out[i]| - 1]))
  {
    out := [];
    for i := 0 to |lines|
      invariant |out| == i
      invariant forall j :: 0 <= j < i ==> out[j] == StripWhitespace(StripComment(lines[j]))
      invariant forall j :: 0 <= j < i ==> '#' !in out[j]
    {
      var code := StripComment(lines[i]);
      var line := StripWhitespace(code);
      StripWhitespaceChars(code);
      out := out + [line];
    }
  }
}

=== FILE: examples.dfy ===
/** The concrete cases of src/wfrcwflib/test/test_parse.py, stated about the
    model. */
module Examples {
  import opened Wrappers
  import opened Lexer
  import opened Ast
  import opened Parser
  import opened Document

  lemma NextTokenCases()
    ensures NextToken("a bc d") == ("a", "bc d")
    ensures NextToken("abc") == ("abc", "")
    ensures NextToken("ab   cd") == ("ab", "cd")
    ensures NextToken("") == ("", "")
  {
    NextTokenOf("a", " ", "bc d");
    assert "a" + " " + "bc d" == "a bc d";
    NextTokenOf("abc", "", "");
    assert "abc" + "" + "" == "abc";
    NextTokenOf("ab", "   ", "cd");
    assert "ab" + "   " + "cd" == "ab   cd";
  }

  /** The tokens of a literal line. */
  lemma TokensOf(line: string, ws: seq<string>)
    requires forall i :: 0 <= i < |ws| ==> Word(ws[i])
    requires line == Unwords(ws)
    ensures Tokens(line) == ws
    ensures line == [] || !IsSpace(line[0])
  {
    TokensOfUnwords(ws);
  }

  lemma ParseConnectorInput()
    ensures ParseConnector("{ input a b }") == Success((Connector(In, "a", "b"), ""))
  {
    var c := Connector(In, "a", "b");
    assert ConnectorText(c) + "" + "" == "{ input a b }";
    ParseConnectorText(c, "", "");
  }

  lemma ParseConnectorOutput()
    ensures ParseConnector("{ output 1 . } g-- -f") == Success((Connector(Out, "1", "."), "g-- -f"))
  {
    var c := Connector(Out, "1", ".");
    assert ConnectorText(c) + " " + "g-- -f" == "{ output 1 . } g-- -f";
    ParseConnectorText(c, " ", "g-- -f");
  }

  lemma ParseConnectorUnspaced()
    ensures ParseConnector("{input a b}").Failure?
  {
    TokensOf("{input a b}", ["{input", "a", "b}"]);
    ParseConnectorTokens("{input a b}");
  }

  lemma ArgumentValuePlain()
    ensures ParseArgumentValue("great.txt { input a b }") == Success((Text("great.txt"), "{ input a b }"))
  {
    NextTokenOf("great.txt", " ", "{ input a b }");
    assert "great.txt" + " " + "{ input a b }" == "great.txt { input a b }";
  }

  lemma ArgumentValuePort()
    ensures ParseArgumentValue("{ input a b } great.txt") == Success((Port(Connector(In, "a", "b")), "great.txt"))
  {
    var c := Connector(In, "a", "b");
    assert ConnectorText(c) + " " + "great.txt" == "{ input a b } great.txt";
    ParseConnectorText(c, " ", "great.txt");
  }

  lemma PositionalPlain()
    ensures ParsePositionalArgument("myfile.txt") == Success(Positional(Text("myfile.txt")))
  {
    NextTokenOf("myfile.txt", "", "");
    assert "myfile.txt" + "" + "" == "myfile.txt";
  }

  lemma PositionalPort()
    ensures ParsePositionalArgument("{ input a b }") == Success(Positional(Port(Connector(In, "a", "b"))))
  {
    ParseConnectorInput();
  }

  lemma PositionalExtra()
    ensures ParsePositionalArgument("myfile.txt b") == Failure(ExtraPositional)
  {
    NextTokenOf("myfile.txt", " ", "b");
    assert "myfile.txt" + " " + "b" == "myfile.txt b";
  }

  lemma OptionalBare()
    ensures OptionalOf("-b") == Success(Optional("-b", []))
  {
    TokensOf("-b", ["-b"]);
    OptionalOfPlain("-b");
  }

  lemma OptionalValues()
    ensures OptionalOf("--hello there c") == Success(Optional("--hello", [Text("there"), Text("c")]))
  {
    var ws := ["--hello", "there", "c"];
    assert Unwords(ws[2..]) == "c";
    assert Unwords(ws[1..]) == "there c";
    assert Unwords(ws) == "--hello there c";
    assert Plain(ws[1..]) by {
      assert ws[1..] == ["there", "c"];
    }
    assert Texts(ws[1..]) == [Text("there"), Text("c")];
    OptionalOfWords(ws);
  }

  /** An optional argument line written as plain words. */
  lemma OptionalOfWords(ws: seq<string>)
    requires ws != [] && StartsWith(ws[0], '-') && Plain(ws[1..])
    requires forall i :: 0 <= i < |ws| ==> Word(ws[i])
    ensures OptionalOf(Unwords(ws)) == Success(Optional(ws[0], Texts(ws[1..])))
  {
    TokensOf(Unwords(ws), ws);
    OptionalOfPlain(Unwords(ws));
  }

  /** test_split_paragraphs: one blank line between two paragraphs. */
  lemma SplitParagraphsOneBlank()
    ensures Paragraphs(["a", "b", "", "c", "d"]) == [["a", "b"], ["c", "d"]]
  {
    var a, b, c, d := "a", "b", "c", "d";
    ParagraphsOfLines([a, b]);
    ParagraphsOfLines([c, d]);
    BlankSplits([a, b], [c, d]);
    assert [a, b] + [""] + [c, d] == [a, b, "", c, d];
  }

  /** test_split_paragraphs: blank lines at the end. */
  lemma SplitParagraphsTrailing()
    ensures Paragraphs(["a", "", "c", "", ""]) == [["a"], ["c"]]
  {
    var a, c := "a", "c";
    ParagraphsOfLines([a]);
    ParagraphsOfLines([c]);
    OuterBlanks([c]);
    OuterBlanks([c, ""]);
    BlankSplits([a], [c, "", ""]);
    assert [a] + [""] + [c, "", ""] == [a, "", c, "", ""];
    assert [c] + [""] + [""] == [c, "", ""];
  }

  /** test_split_paragraphs: a run of blank lines. */
  lemma SplitParagraphsBlankRun()
    ensures Paragraphs(["a", "", "", "", "c", "d"]) == [["a"], ["c", "d"]]
  {
    var a, c, d := "a", "c", "d";
    var run3, run2, run1 := [a, "", "", "", c, d], [a, "", "", c, d], [a, "", c, d];
    BlankRunCollapses([a], ["", c, d]);
    assert [a] + ["", ""] + ["", c, d] == run3 && [a] + [""] + ["", c, d] == run2;
    BlankRunCollapses([a], [c, d]);
    assert [a] + ["", ""] + [c, d] == run2 && [a] + [""] + [c, d] == run1;
    BlankSplits([a], [c, d]);
    ParagraphsOfLines([a]);
    ParagraphsOfLines([c, d]);
  }
}

=== FILE: graph.dfy ===
/** The state of a Workflow (src/wfrcwflib/workflow.py:78-97) as a value, and
    what _add_step, connect and resolve do to it. */
module Graph {
  import opened Wrappers
  import opened Ast

  /** A (step name, port name) pair. */
  type Port = (string, string)

  /** Steps by name. */
  type Registry = map<string, Step>

  /** The registry maps every name to the step of that name. */
  predicate Keyed(reg: Registry) {
    forall n :: n in reg ==> reg[n].name == n
  }

  /** _active_steps, and connections_in as an insertion-ordered dict: its keys
      in insertion order and its entries. An entry (step, input) maps to the
      producing (step, output), or to None while unresolved. */
  datatype State = State(active: set<string>, keys: seq<Port>, links: map<Port, Option<Port>>)

  /** The key order lists each key of the dict exactly once. */
  ghost predicate WellFormed(g: State) {
    && Distinct(g.keys)
    && forall k :: k in g.links <==> k in g.keys
  }

  datatype GraphError =
    | UnknownStep(name: string)   // KeyError on the registry or on the dag
    | UnknownOutput(port: Port)   // KeyError in connections_out
    | Cycle(steps: set<string>)   // graphlib.CycleError

  /** A freshly constructed Workflow (workflow.py:79-85). */
  function Empty(): (g: State)
    ensures WellFormed(g)
  {
    State({}, [], map[])
  }

  /** connections_in[k] = v: a new key goes to the end, an existing one keeps
      its place. */
  function Put(g: State, k: Port, v: Option<Port>): (h: State)
    ensures h.active == g.active
    ensures h.links == g.links[k := v]
    ensures k in g.links ==> h.keys == g.keys
    ensures k !in g.links ==> h.keys == g.keys + [k]
    ensures WellFormed(g) ==> WellFormed(h)
  {
    State(g.active, if k in g.links then g.keys else g.keys + [k], g.links[k := v])
  }

  /** The loop of _add_step (workflow.py:95-96): (step, input) = None for each
      input name, in order. */
  function Seed(g: State, step: string, inputs: seq<string>): (h: State)
    decreases |inputs|
  {
    if inputs == [] then g
    else Put(Seed(g, step, inputs[..|inputs| - 1]), (step, inputs[|inputs| - 1]), None)
  }

  /** _add_step (workflow.py:92-97). */
  function Activated(reg: Registry, g: State, name: string): Result<State, GraphError> {
    if name in g.active then Success(g)
    else if name !in reg then Failure(UnknownStep(name))
    else
      var step := reg[name];
      var h := Seed(g, step.name, InputNames(step));
      Success(h.(active := h.active + {step.name}))
  }

  /** connect (workflow.py:87-90): the state after the call, with the error it
      raised, if any. A failure to activate to_step leaves from_step active. */
  function Connected(reg: Registry, g: State, c: Connection): (State, Option<GraphError>) {
    match Activated(reg, g, c.fromStep)
    case Failure(e) => (g, Some(e))
    case Success(g1) =>
      match Activated(reg, g1, c.toStep)
      case Failure(e) => (g1, Some(e))
      case Success(g2) => (Put(g2, (c.toStep, c.toInput), Some((c.fromStep, c.fromOutput))), None)
  }

  /** The loop of resolve (workflow.py:73-74): connect each tuple in turn,
      stopping at the first error. */
  function Replayed(reg: Registry, g: State, cs: seq<Connection>): (State, Option<GraphError>)
    decreases |cs|
  {
    if cs == [] then (g, None)
    else
      var (h, e) := Replayed(reg, g, cs[..|cs| - 1]);
      if e.Some? then (h, e) else Connected(reg, h, cs[|cs| - 1])
  }

  /** resolve (workflow.py:71-75): the graph of a fresh workflow after all
      connections, or the error; no partial graph is returned. */
  function Resolved(reg: Registry, cs: seq<Connection>): Result<State, GraphError> {
    var (h, e) := Replayed(reg, Empty(), cs);
    if e.Some? then Failure(e.value) else Success(h)
  }

  /** The invariant of a Workflow whose registry is keyed: every declared input
      of every active step has an entry, every entry's step is active, and so
      is every producing step an entry names. */
  ghost predicate Covered(reg: Registry, g: State) {
    && WellFormed(g)
    && (forall s :: s in g.active ==> s in reg)
    && (forall s, i :: s in g.active && i in InputNames(reg[s]) ==> (s, i) in g.links)
    && (forall k :: k in g.links ==> k.0 in g.active)
    && (forall k :: k in g.links && g.links[k].Some? ==> g.links[k].value.0 in g.active)
  }

  /** Seed keeps the active steps and well-formedness, and only appends keys. */
  lemma {:induction false} SeedFrame(g: State, step: string, inputs: seq<string>)
    requires WellFormed(g)
    ensures var h := Seed(g, step, inputs);
      WellFormed(h) && h.active == g.active && g.keys <= h.keys
    decreases |inputs|
  {
    if inputs != [] {
      SeedFrame(g, step, inputs[..|inputs| - 1]);
    }
  }

  /** What Seed does to one port: the given inputs of step map to None, and
      every other entry is as before. */
  lemma {:induction false} SeedAt(g: State, step: string, inputs: seq<string>, k: Port)
    ensures var h := Seed(g, step, inputs);
      && (k in h.links <==> k in g.links || (k.0 == step && k.1 in inputs))
      && (k in h.links ==> h.links[k] == if k.0 == step && k.1 in inputs then None else g.links[k])
    decreases |inputs|
  {
    if inputs != [] {
      var init := inputs[..|inputs| - 1];
      SeedAt(g, step, init, k);
      assert k.1 in inputs <==> k.1 in init || k.1 == inputs[|inputs| - 1];
    }
  }

  /** _add_step on a keyed registry keeps the invariant, never resets an
      existing entry and only appends keys; re-activating an active step
      changes nothing, and it fails exactly on a name the registry lacks. */
  lemma ActivatedSpec(reg: Registry, g: State, name: string)
    requires Keyed(reg) && Covered(reg, g)
    ensures Activated(reg, g, name).Failure? <==> name !in reg
    ensures Activated(reg, g, name).Failure? ==> Activated(reg, g, name).error == UnknownStep(name)
    ensures name in g.active ==> Activated(reg, g, name) == Success(g)
    ensures Activated(reg, g, name).Success? ==>
      var h := Activated(reg, g, name).value;
      && Covered(reg, h)
      && h.active == g.active + {name}
      && g.keys <= h.keys
      && (forall k :: k in g.links ==> k in h.links && h.links[k] == g.links[k])
      && (forall k :: k in h.links && k !in g.links ==>
            h.links[k] == None && k.0 == name && k.1 in InputNames(reg[name]))
  {
    if name !in g.active && name in reg {
      var step := reg[name];
      SeedFrame(g, step.name, InputNames(step));
      forall k {
        SeedAt(g, step.name, InputNames(step), k);
      }
    }
  }

  /** connect on a keyed registry keeps the invariant, even when it fails, and
      fails exactly when one of the two steps is unknown, naming the first. */
  lemma ConnectedSpec(reg: Registry, g: State, c: Connection)
    requires Keyed(reg) && Covered(reg, g)
    ensures var (h, e) := Connected(reg, g, c);
      && Covered(reg, h)
      && (e.Some? <==> c.fromStep !in reg || c.toStep !in reg)
      && (e.Some? ==> e.value == UnknownStep(if c.fromStep !in reg then c.fromStep else c.toStep))
  {
    ActivatedSpec(reg, g, c.fromStep);
    if c.fromStep in reg {
      ActivatedSpec(reg, Activated(reg, g, c.fromStep).value, c.toStep);
    }
  }

  /** A successful connect activates both steps and only appends keys. */
  lemma ConnectedGrows(reg: Registry, g: State, c: Connection)
    requires Keyed(reg) && Covered(reg, g)
    ensures var (h, e) := Connected(reg, g, c);
      e.None? ==> h.active == g.active + {c.fromStep, c.toStep} && g.keys <= h.keys
  {
    ActivatedSpec(reg, g, c.fromStep);
    if c.fromStep in reg {
      ActivatedSpec(reg, Activated(reg, g, c.fromStep).value, c.toStep);
    }
  }

  /** What a successful connect does to one entry: the target now names the
      source; any other entry keeps its value, or is None if newly seeded. */
  lemma ConnectedAt(reg: Registry, g: State, c: Connection, k: Port)
    requires Keyed(reg) && Covered(reg, g)
    ensures var (h, e) := Connected(reg, g, c);
      && (e.None? && k in g.links ==> k in h.links)
      && (e.None? && k == (c.toStep, c.toInput) ==> k in h.links && h.links[k] == Some((c.fromStep, c.fromOutput)))
      && (e.None? && k != (c.toStep, c.toInput) && k in h.links ==>
            h.links[k] == if k in g.links then g.links[k] else None)
  {
    ActivatedSpec(reg, g, c.fromStep);
    if c.fromStep in reg {
      ActivatedSpec(reg, Activated(reg, g, c.fromStep).value, c.toStep);
    }
  }

  /** Every entry after connect was there before, is the port the connection
      writes, or is a declared input of a registered step. */
  lemma ConnectedKeys(reg: Registry, g: State, c: Connection, k: Port)
    requires Keyed(reg) && Covered(reg, g)
    ensures var (h, e) := Connected(reg, g, c);
      k in h.links ==> k in g.links || k == Target(c) || (k.0 in reg && k.1 in InputNames(reg[k.0]))
  {
    ActivatedSpec(reg, g, c.fromStep);
    if c.fromStep in reg {
      ActivatedSpec(reg, Activated(reg, g, c.fromStep).value, c.toStep);
    }
  }

  /** The port a connection writes, and the port it names as producer. */
  function Target(c: Connection): Port { (c.toStep, c.toInput) }
  function Source(c: Connection): Port { (c.fromStep, c.fromOutput) }

  /** The steps the connections mention. */
  function Names(cs: seq<Connection>): set<string>
    decreases |cs|
  {
    if cs == [] then {} else Names(cs[..|cs| - 1]) + {cs[|cs| - 1].fromStep, cs[|cs| - 1].toStep}
  }

  /** The first step name, reading each connection's from_step before its
      to_step, that the registry lacks. */
  function Missing(reg: Registry, cs: seq<Connection>): Option<string>
    decreases |cs|
  {
    if cs == [] then None
    else
      var m := Missing(reg, cs[..|cs| - 1]);
      var c := cs[|cs| - 1];
      if m.Some? then m
      else if c.fromStep !in reg then Some(c.fromStep)
      else if c.toStep !in reg then Some(c.toStep)
      else None
  }

  /** The producer the last connection into port k names, if any. */
  function Writer(cs: seq<Connection>, k: Port): Option<Port>
    decreases |cs|
  {
    if cs == [] then None
    else if Target(cs[|cs| - 1]) == k then Some(Source(cs[|cs| - 1]))
    else Writer(cs[..|cs| - 1], k)
  }

  /** Missing finds nothing exactly when the registry knows every step named. */
  lemma {:induction false} MissingNone(reg: Registry, cs: seq<Connection>)
    ensures Missing(reg, cs).None? <==> Names(cs) <= reg.Keys
    decreases |cs|
  {
    if cs != [] {
      MissingNone(reg, cs[..|cs| - 1]);
    }
  }

  /** What Missing finds is a missing name of some connection, and every earlier
      connection, and the from_step of its own, are known. */
  lemma {:induction false} MissingSome(reg: Registry, cs: seq<Connection>)
    requires Missing(reg, cs).Some?
    ensures var n := Missing(reg, cs).value;
      n !in reg && exists i :: (0 <= i < |cs|
        && (n == cs[i].fromStep || (n == cs[i].toStep && cs[i].fromStep in reg))
        && Names(cs[..i]) <= reg.Keys)
    decreases |cs|
  {
    var init := cs[..|cs| - 1];
    var n := Missing(reg, cs).value;
    if Missing(reg, init).Some? {
      MissingSome(reg, init);
      var i :| 0 <= i < |init|
        && (n == init[i].fromStep || (n == init[i].toStep && init[i].fromStep in reg))
        && Names(init[..i]) <= reg.Keys;
      assert init[..i] == cs[..i];
    } else {
      MissingNone(reg, init);
      assert cs[..|cs| - 1] == init;
    }
  }

  /** The last connection into k names the producer Writer gives, and no
      connection into k means no writer. */
  lemma {:induction false} WriterSpec(cs: seq<Connection>, k: Port)
    ensures Writer(cs, k).None? <==> forall i :: 0 <= i < |cs| ==> Target(cs[i]) != k
    ensures Writer(cs, k).Some? ==> exists i :: (0 <= i < |cs| && Target(cs[i]) == k
      && Writer(cs, k) == Some(Source(cs[i]))
      && forall j :: i < j < |cs| ==> Target(cs[j]) != k)
    decreases |cs|
  {
    if cs != [] {
      var init := cs[..|cs| - 1];
      WriterSpec(init, k);
      assert forall i :: 0 <= i < |init| ==> init[i] == cs[i];
      if Target(cs[|cs| - 1]) != k && Writer(init, k).Some? {
        var i :| 0 <= i < |init| && Target(init[i]) == k && Writer(init, k) == Some(Source(init[i]))
          && forall j :: i < j < |init| ==> Target(init[j]) != k;
        assert forall j :: i < j < |cs| ==> Target(cs[j]) != k;
      }
    }
  }

  /** Replaying connections keeps the invariant, and stops with the error for
      the first unknown step name, if any. */
  lemma {:induction false} ReplayedError(reg: Registry, g: State, cs: seq<Connection>)
    requires Keyed(reg) && Covered(reg, g)
    ensures var (h, e) := Replayed(reg, g, cs);
      && Covered(reg, h)
      && e == (match Missing(reg, cs) case None => None case Some(n) => Some(UnknownStep(n)))
    decreases |cs|
  {
    if cs != [] {
      var init := cs[..|cs| - 1];
      ReplayedError(reg, g, init);
      var (h, e) := Replayed(reg, g, init);
      if e.None? {
        ConnectedSpec(reg, h, cs[|cs| - 1]);
      }
    }
  }

  /** A complete replay activates exactly the steps it mentions. */
  lemma {:induction false} ReplayedActive(reg: Registry, g: State, cs: seq<Connection>)
    requires Keyed(reg) && Covered(reg, g)
    ensures var (h, e) := Replayed(reg, g, cs);
      e.None? ==> h.active == g.active + Names(cs)
    decreases |cs|
  {
    if cs != [] {
      var init := cs[..|cs| - 1];
      ReplayedActive(reg, g, init);
      ReplayedError(reg, g, init);
      var (h, e) := Replayed(reg, g, init);
      if e.None? {
        ConnectedGrows(reg, h, cs[|cs| - 1]);
      }
    }
  }

  /** After a complete replay an entry holds what the last connection into it
      wrote; an entry nobody wrote keeps its value, or is None if new. */
  lemma {:induction false} ReplayedLinks(reg: Registry, g: State, cs: seq<Connection>, k: Port)
    requires Keyed(reg) && Covered(reg, g)
    ensures var (h, e) := Replayed(reg, g, cs);
      && (e.None? && (Writer(cs, k).Some? || k in g.links) ==> k in h.links)
      && (e.None? && k in h.links ==>
            h.links[k] == if Writer(cs, k).Some? then Writer(cs, k) else if k in g.links then g.links[k] else None)
    decreases |cs|
  {
    if cs != [] {
      var init := cs[..|cs| - 1];
      ReplayedLinks(reg, g, init, k);
      ReplayedError(reg, g, init);
      var (h, e) := Replayed(reg, g, init);
      if e.None? {
        ConnectedAt(reg, h, cs[|cs| - 1], k);
      }
    }
  }

  /** Replaying adds no entry other than a declared input of a registered step
      or a port some connection writes. */
  lemma {:induction false} ReplayedKeys(reg: Registry, g: State, cs: seq<Connection>, k: Port)
    requires Keyed(reg) && Covered(reg, g)
    ensures var (h, e) := Replayed(reg, g, cs);
      k in h.links ==> k in g.links || Writer(cs, k).Some? || (k.0 in reg && k.1 in InputNames(reg[k.0]))
    decreases |cs|
  {
    if cs != [] {
      var init := cs[..|cs| - 1];
      ReplayedKeys(reg, g, init, k);
      ReplayedError(reg, g, init);
      var (h, e) := Replayed(reg, g, init);
      if e.None? {
        ConnectedKeys(reg, h, cs[|cs| - 1], k);
      }
    }
  }

  /** resolve on a keyed registry: it succeeds exactly when every step named is
      registered, failing on the first unknown name otherwise; the resolved
      graph keeps the invariant, activates exactly the steps named, and maps
      every port to its last writer, or to None if nothing connects to it. */
  lemma ResolvedSpec(reg: Registry, cs: seq<Connection>)
    requires Keyed(reg)
    ensures Resolved(reg, cs).Success? <==> Names(cs) <= reg.Keys
    ensures Resolved(reg, cs).Failure? ==> Missing(reg, cs).Some? && Resolved(reg, cs).error == UnknownStep(Missing(reg, cs).value)
    ensures Resolved(reg, cs).Success? ==>
      var h := Resolved(reg, cs).value;
      && Covered(reg, h)
      && h.active == Names(cs)
      && (forall k :: Writer(cs, k).Some? ==> k in h.links)
      && (forall k :: k in h.links ==> h.links[k] == Writer(cs, k))
  {
    ReplayedError(reg, Empty(), cs);
    ReplayedActive(reg, Empty(), cs);
    MissingNone(reg, cs);
    forall k {
      ReplayedLinks(reg, Empty(), cs, k);
    }
  }

  /** The entries of a resolved graph are exactly the ports some connection
      writes and the declared inputs of the steps named: a declared input
      nobody writes stays None, and nothing else appears. */
  lemma ResolvedEntries(reg: Registry, cs: seq<Connection>, k: Port)
    requires Keyed(reg)
    requires Resolved(reg, cs).Success?
    ensures var h := Resolved(reg, cs).value;
      k in h.links <==> Writer(cs, k).Some? || (k.0 in Names(cs) && k.0 in reg && k.1 in InputNames(reg[k.0]))
  {
    ResolvedSpec(reg, cs);
    ReplayedKeys(reg, Empty(), cs, k);
  }
}

=== FILE: lexer.dfy ===
/** Lexical layer of the workflow language (src/wfrcwflib/parse.py): the
    whitespace tokenizer next_token, comment stripping and trimming. */
module Lexer {

  /** Whitespace as Python's str.split() and str.strip() see it, restricted to ASCII. */
  predicate IsSpace(c: char) {
    c == ' ' || c == '\t' || c == '\n' || c == '\r' || c == '\U{0b}' || c == '\U{0c}'
    || ('\U{1c}' <= c <= '\U{1f}')
  }

  predicate AllSpace(s: string) {
    forall i :: 0 <= i < |s| ==> IsSpace(s[i])
  }

  predicate NoSpace(s: string) {
    forall i :: 0 <= i < |s| ==> !IsSpace(s[i])
  }

  /** A token as the tokenizer produces it: non-empty and free of whitespace. */
  predicate Word(s: string) {
    s != [] && NoSpace(s)
  }

  /** The first index at or after p that does not hold whitespace (|s| if none). */
  function SkipSpace(s: string, p: nat): (n: nat)
    requires p <= |s|
    ensures p <= n <= |s|
    decreases |s| - p
  {
    if p == |s| || !IsSpace(s[p]) then p else SkipSpace(s, p + 1)
  }

  /** The first index at or after p that holds whitespace (|s| if none). */
  function SkipWord(s: string, p: nat): (n: nat)
    requires p <= |s|
    ensures p <= n <= |s|
    decreases |s| - p
  {
    if p == |s| || IsSpace(s[p]) then p else SkipWord(s, p + 1)
  }

  /** SkipSpace stops at the end of the whitespace run, and nowhere else. */
  lemma {:induction false} SkipSpaceIs(s: string, p: nat, n: nat)
    requires p <= n <= |s|
    ensures SkipSpace(s, p) == n <==>
      (forall q :: p <= q < n ==> IsSpace(s[q])) && (n < |s| ==> !IsSpace(s[n]))
    decreases |s| - p
  {
    if p < |s| && IsSpace(s[p]) {
      if p < n {
        SkipSpaceIs(s, p + 1, n);
      } else {
        SkipSpaceIs(s, p + 1, SkipSpace(s, p + 1));
      }
    }
  }

  /** SkipWord stops at the end of the run of non-whitespace, and nowhere else. */
  lemma {:induction false} SkipWordIs(s: string, p: nat, n: nat)
    requires p <= n <= |s|
    ensures SkipWord(s, p) == n <==>
      (forall q :: p <= q < n ==> !IsSpace(s[q])) && (n < |s| ==> IsSpace(s[n]))
    decreases |s| - p
  {
    if p < |s| && !IsSpace(s[p]) {
      if p < n {
        SkipWordIs(s, p + 1, n);
      } else {
        SkipWordIs(s, p + 1, SkipWord(s, p + 1));
      }
    }
  }

  /** next_token: split at the first whitespace run (parse.py:10-18). */
  function NextToken(line: string): (r: (string, string))
    ensures |r.1| <= |line|
    ensures r.0 == [] ==> r.1 == []
    ensures r.0 != [] ==> |r.1| < |line|
  {
    var i := SkipSpace(line, 0);
    var j := SkipWord(line, i);
    if j == i then ("", "") else (line[i..j], line[SkipSpace(line, j)..])
  }

  /** s = pad + tok + gap + rest, where tok is a maximal run of non-whitespace
      preceded and followed only by whitespace, and rest starts at the next token. */
  ghost predicate SplitAs(s: string, pad: string, tok: string, gap: string, rest: string) {
    && s == pad + tok + gap + rest
    && AllSpace(pad) && Word(tok) && AllSpace(gap)
    && (rest != [] ==> gap != [] && !IsSpace(rest[0]))
  }

  /** What `line.split(maxsplit=1)` padded to two fields means: the first token
      and the text after the whitespace that follows it; ("", "") when there is
      no token at all. */
  ghost predicate IsTokenSplit(s: string, tok: string, rest: string) {
    if tok == [] then AllSpace(s) && rest == []
    else exists pad, gap :: SplitAs(s, pad, tok, gap, rest)
  }

  /** next_token's result is the split IsTokenSplit describes. */
  lemma NextTokenSplits(line: string)
    ensures IsTokenSplit(line, NextToken(line).0, NextToken(line).1)
  {
    var i := SkipSpace(line, 0);
    var j := SkipWord(line, i);
    SkipSpaceIs(line, 0, i);
    SkipWordIs(line, i, j);
    if j != i {
      var k := SkipSpace(line, j);
      SkipSpaceIs(line, j, k);
      var pad, tok, gap, rest := line[..i], line[i..j], line[j..k], line[k..];
      Slices(line, i, j, k);
      assert AllSpace(pad) && Word(tok) && AllSpace(gap);
      assert SplitAs(line, pad, tok, gap, rest);
    }
  }

  /** A sequence cut in four places is the concatenation of its pieces. */
  lemma Slices<T>(s: seq<T>, i: nat, j: nat, k: nat)
    requires i <= j <= k <= |s|
    ensures s == s[..i] + s[i..j] + s[j..k] + s[k..]
  {
  }

  lemma NextTokenOfParts(pad: string, tok: string, gap: string, rest: string)
    requires AllSpace(pad) && Word(tok) && AllSpace(gap)
    requires rest != [] ==> gap != [] && !IsSpace(rest[0])
    ensures NextToken(pad + tok + gap + rest).0 == tok
    ensures NextToken(pad + tok + gap + rest).1 == rest
  {
    var s := pad + tok + gap + rest;
    var i, j, k := |pad|, |pad| + |tok|, |pad| + |tok| + |gap|;
    PartsAt(pad, tok, gap, rest);
    SkipSpaceIs(s, 0, i);
    SkipWordIs(s, i, j);
    SkipSpaceIs(s, j, k);
  }

  /** Where each part of pad + tok + gap + rest sits, and what the scanners see there. */
  lemma PartsAt(pad: string, tok: string, gap: string, rest: string)
    requires AllSpace(pad) && Word(tok) && AllSpace(gap)
    requires rest != [] ==> gap != [] && !IsSpace(rest[0])
    ensures var s, i, j, k := pad + tok + gap + rest, |pad|, |pad| + |tok|, |pad| + |tok| + |gap|;
      && s[i..j] == tok && s[k..] == rest
      && (forall q :: 0 <= q < i ==> IsSpace(s[q])) && !IsSpace(s[i])
      && (forall q :: i <= q < j ==> !IsSpace(s[q])) && (j < |s| ==> IsSpace(s[j]))
      && (forall q :: j <= q < k ==> IsSpace(s[q])) && (k < |s| ==> !IsSpace(s[k]))
  {
  }

  /** Any split in the sense of IsTokenSplit is the one next_token computes:
      the declarative description determines the result. */
  lemma NextTokenUnique(s: string, tok: string, rest: string)
    requires IsTokenSplit(s, tok, rest)
    ensures NextToken(s) == (tok, rest)
  {
    if tok == [] {
      SkipSpaceIs(s, 0, |s|);
    } else {
      var pad, gap :| SplitAs(s, pad, tok, gap, rest);
      NextTokenOfParts(pad, tok, gap, rest);
    }
  }
  /** The usual way a token is met: tok, then a non-empty gap, then the next token. */
  lemma NextTokenOf(tok: string, gap: string, rest: string)
    requires Word(tok) && AllSpace(gap)
    requires rest != [] ==> gap != [] && !IsSpace(rest[0])
    ensures NextToken(tok + gap + rest) == (tok, rest)
  {
    assert SplitAs(tok + gap + rest, [], tok, gap, rest) by {
      assert [] + tok + gap + rest == tok + gap + rest;
    }
    NextTokenUnique(tok + gap + rest, tok, rest);
  }

  /** What next_token leaves over starts at a token, if it is not empty. */
  lemma NextTokenRest(line: string)
    ensures NextToken(line).1 == [] || !IsSpace(NextToken(line).1[0])
  {
    NextTokenSplits(line);
  }

  /** Text that starts with a non-whitespace character has a first token. */
  lemma NextTokenNonEmpty(line: string)
    requires line != [] && !IsSpace(line[0])
    ensures NextToken(line).0 != []
  {
    assert SkipSpace(line, 0) == 0;
  }

  /** A token met at the very start of the text begins with its first character. */
  lemma NextTokenHead(line: string)
    requires line != [] && !IsSpace(line[0])
    ensures NextToken(line).0 != [] && NextToken(line).0[0] == line[0]
  {
    assert SkipSpace(line, 0) == 0;
  }

  /** The whitespace-separated tokens of s, as Python's s.split(). */
  function Tokens(s: string): (ts: seq<string>)
    decreases |s|
  {
    var (t, r) := NextToken(s);
    if t == [] then [] else [t] + Tokens(r)
  }

  /** Every token is a word: non-empty and free of whitespace. */
  lemma {:induction false} TokensAreWords(s: string)
    ensures forall k :: 0 <= k < |Tokens(s)| ==> Word(Tokens(s)[k])
    decreases |s|
  {
    var t, r := NextToken(s).0, NextToken(s).1;
    if t != [] {
      NextTokenSplits(s);
      var pad, gap :| SplitAs(s, pad, t, gap, r);
      TokensAreWords(r);
      var ts := Tokens(s);
      assert ts == [t] + Tokens(r);
      forall k | 0 <= k < |ts|
        ensures Word(ts[k])
      {
        if k > 0 {
          assert ts[k] == Tokens(r)[k - 1];
        }
      }
    }
  }

  /** next_token takes the first token off the token list: it returns the
      first token ("" when there is none), and what it leaves holds the others. */
  lemma NextTokenPeels(s: string)
    ensures NextToken(s).0 == (if Tokens(s) == [] then "" else Tokens(s)[0])
    ensures Tokens(NextToken(s).1) == (if Tokens(s) == [] then [] else Tokens(s)[1..])
  {
    var t, r := NextToken(s).0, NextToken(s).1;
    if t == [] {
      assert r == [];
      assert NextToken([]).0 == [];
    }
  }

  /** The text next_token leaves is empty exactly when at most one token was there. */
  lemma NextTokenRestEmpty(s: string)
    ensures NextToken(s).1 == [] <==> |Tokens(s)| <= 1
  {
    var t, r := NextToken(s).0, NextToken(s).1;
    NextTokenPeels(s);
    NextTokenRest(s);
    NoTokensIffEmpty(r);
  }

  /** Text that starts at a token (or is empty) is empty exactly when it has no tokens. */
  lemma NoTokensIffEmpty(s: string)
    requires s == [] || !IsSpace(s[0])
    ensures Tokens(s) == [] <==> s == []
  {
    if s != [] {
      NextTokenNonEmpty(s);
    } else {
      assert NextToken(s).0 == [];
    }
  }

  /** Words joined by single spaces. */
  function Unwords(ws: seq<string>): string
    decreases |ws|
  {
    if ws == [] then ""
    else if |ws| == 1 then ws[0]
    else ws[0] + " " + Unwords(ws[1..])
  }

  /** Splitting words joined by spaces gives the words back. */
  lemma {:induction false} TokensOfUnwords(ws: seq<string>)
    requires forall i :: 0 <= i < |ws| ==> Word(ws[i])
    ensures Tokens(Unwords(ws)) == ws
    ensures Unwords(ws) == [] || !IsSpace(Unwords(ws)[0])
    decreases |ws|
  {
    if ws == [] {
      assert NextToken("").0 == [];
    } else if |ws| == 1 {
      NextTokenOf(ws[0], "", "");
      assert ws[0] + "" + "" == ws[0];
      assert NextToken("").0 == [];
    } else {
      var rest := Unwords(ws[1..]);
      TokensOfUnwords(ws[1..]);
      assert ws[1] == ws[1..][0];
      NextTokenOf(ws[0], " ", rest);
      assert [ws[0]] + ws[1..] == ws;
    }
  }

  /** strip_comment: everything before the first '#' (parse.py:143-145). */
  function StripComment(line: string): (r: string)
    ensures '#' !in r
    ensures |r| <= |line| && r == line[..|r|]
    ensures |r| < |line| ==> line[|r|] == '#'
  {
    if line == [] || line[0] == '#' then [] else [line[0]] + StripComment(line[1..])
  }

  /** The index just past the last non-whitespace character of s[lo..hi]
      (lo when there is none). */
  function TrimEnd(s: string, lo: nat, hi: nat): (n: nat)
    requires lo <= hi <= |s|
    ensures lo <= n <= hi
    decreases hi
  {
    if hi == lo || !IsSpace(s[hi - 1]) then hi else TrimEnd(s, lo, hi - 1)
  }

  lemma {:induction false} TrimEndSpec(s: string, lo: nat, hi: nat)
    requires lo <= hi <= |s|
    ensures forall q :: TrimEnd(s, lo, hi) <= q < hi ==> IsSpace(s[q])
    ensures TrimEnd(s, lo, hi) > lo ==> !IsSpace(s[TrimEnd(s, lo, hi) - 1])
    decreases hi
  {
    if hi > lo && IsSpace(s[hi - 1]) {
      TrimEndSpec(s, lo, hi - 1);
    }
  }

  /** strip_whitespace: str.strip() (parse.py:147-148). */
  function StripWhitespace(line: string): (r: string)
    ensures |r| <= |line|
    ensures r == [] || (!IsSpace(r[0]) && !IsSpace(r[|r| - 1]))
  {
    var i := SkipSpace(line, 0);
    var e := TrimEnd(line, i, |line|);
    SkipSpaceIs(line, 0, i);
    TrimEndSpec(line, i, |line|);
    line[i..e]
  }

  /** What was removed on either side is whitespace only. */
  lemma StripWhitespaceSplits(line: string)
    ensures exists pre, post ::
      (line == pre + StripWhitespace(line) + post && AllSpace(pre) && AllSpace(post))
  {
    var i := SkipSpace(line, 0);
    var e := TrimEnd(line, i, |line|);
    SkipSpaceIs(line, 0, i);
    TrimEndSpec(line, i, |line|);
    var pre, post := line[..i], line[e..];
    assert line == pre + StripWhitespace(line) + post;
    assert AllSpace(pre) && AllSpace(post);
  }

  /** Stripping only removes characters. */
  lemma StripWhitespaceChars(line: string)
    ensures forall c :: c in StripWhitespace(line) ==> c in line
  {
    StripWhitespaceSplits(line);
  }

  /** Stripping twice strips nothing more. */
  lemma StripWhitespaceIdempotent(line: string)
    ensures StripWhitespace(StripWhitespace(line)) == StripWhitespace(line)
  {
    var r := StripWhitespace(line);
    if r != [] {
      assert SkipSpace(r, 0) == 0;
      assert TrimEnd(r, 0, |r|) == |r|;
      assert r[0..|r|] == r;
    }
  }

  /** Removing the comment twice removes nothing more. */
  lemma StripCommentIdempotent(line: string)
    ensures StripComment(StripComment(line)) == StripComment(line)
  {
    var r := StripComment(line);
    StripCommentNoHash(r);
  }

  lemma {:induction false} StripCommentNoHash(s: string)
    requires '#' !in s
    ensures StripComment(s) == s
    decreases |s|
  {
    if s != [] {
      assert s[0] in s;
      assert forall c :: c in s[1..] ==> c in s;
      StripCommentNoHash(s[1..]);
    }
  }
}

=== FILE: parser.dfy ===
/** The recursive-descent parser of src/wfrcwflib/parse.py: connectors,
    argument values, positional and optional arguments, step and workflow
    paragraphs. A ParseError becomes a Failure value. */
module Parser {
  import opened Wrappers
  import opened Lexer
  import opened Ast

  /** One variant per message the parser raises, plus MissingLine for a
      paragraph that runs out of lines (StopIteration from next(lines), or
      IndexError on lines[0]). */
  datatype ParseError =
    | BadOpen          // connector must start with '{ '
    | BadKind          // invalid connector type
    | EmptyName        // connector name cannot be empty
    | EmptyExt         // connector ext cannot be empty
    | BadClose         // connector must end with ' }'
    | ExtraPositional  // only one positional argument per line
    | BadFlag          // optional argument flags must start with '-'
    | NameNotAlone     // name must appear by itself
    | ProgNotAlone     // prog must appear by itself
    | TooManyTokens    // too many tokens in connection
    | BadKeyword       // invalid keyword
    | MissingLine

  /** The errors of the connector grammar. */
  predicate IsConnectorError(e: ParseError) {
    e.BadOpen? || e.BadKind? || e.EmptyName? || e.EmptyExt? || e.BadClose?
  }

  /** The errors one argument line can raise. */
  predicate IsArgumentError(e: ParseError) {
    IsConnectorError(e) || e.ExtraPositional? || e.BadFlag?
  }

  /** str.startswith with a one-character prefix. */
  predicate StartsWith(s: string, c: char) {
    |s| > 0 && s[0] == c
  }

  /** The table `connectors` (parse.py:20-23): the connector keywords. */
  function KindOf(cmd: string): (d: Option<Direction>)
    ensures d == Some(In) <==> cmd == "input"
    ensures d == Some(Out) <==> cmd == "output"
  {
    if cmd == "input" then Some(In) else if cmd == "output" then Some(Out) else None
  }

  /** parse_connector (parse.py:25-47): five tokens `{ input|output name ext }`;
      returns the connector and the unconsumed text. */
  function ParseConnector(line: string): (r: Result<(Connector, string), ParseError>)
    ensures r.Success? ==> |r.value.1| < |line|
    ensures r.Failure? ==> IsConnectorError(r.error)
  {
    var (open, r1) := NextToken(line);
    if open != "{" then Failure(BadOpen)
    else
      var (cmd, r2) := NextToken(r1);
      if KindOf(cmd).None? then Failure(BadKind)
      else
        var (name, r3) := NextToken(r2);
        if name == "" then Failure(EmptyName)
        else
          var (ext, r4) := NextToken(r3);
          if ext == "" then Failure(EmptyExt)
          else
            var (close, r5) := NextToken(r4);
            if close != "}" then Failure(BadClose)
            else Success((Connector(KindOf(cmd).value, name, ext), r5))
  }

  /** The k-th token of a list, or "" past its end. */
  function Tok(ts: seq<string>, k: nat): string {
    if k < |ts| then ts[k] else ""
  }

  /** The list ts without its first k elements ([] past its end). */
  function Drop(ts: seq<string>, k: nat): seq<string> {
    if k <= |ts| then ts[k..] else []
  }

  /** next_token applied to text holding the tokens from the k-th on. */
  lemma PeelAt(s: string, ts: seq<string>, k: nat)
    requires Tokens(s) == Drop(ts, k)
    ensures NextToken(s).0 == Tok(ts, k)
    ensures Tokens(NextToken(s).1) == Drop(ts, k + 1)
  {
  }

  /** parse_connector read off the token list of its input: it succeeds exactly
      when there are at least five tokens, the first is `{`, the second a
      connector keyword and the fifth `}`; the connector takes its direction,
      name and ext from tokens two to four, and the text left over holds the
      remaining tokens. Each check that fails first gives its own error. */
  lemma ParseConnectorTokens(line: string)
    ensures var ts, r := Tokens(line), ParseConnector(line);
      && (r.Success? <==>
            |ts| >= 5 && ts[0] == "{" && (ts[1] == "input" || ts[1] == "output") && ts[4] == "}")
      && (r.Success? ==>
            && r.value.0 == Connector(if ts[1] == "input" then In else Out, ts[2], ts[3])
            && Tokens(r.value.1) == ts[5..]
            && (r.value.1 == [] || !IsSpace(r.value.1[0])))
      && (Tok(ts, 0) != "{" ==> r == Failure(BadOpen))
      && (Tok(ts, 0) == "{" && KindOf(Tok(ts, 1)).None? ==> r == Failure(BadKind))
      && (Tok(ts, 0) == "{" && KindOf(Tok(ts, 1)).Some? && |ts| == 2 ==> r == Failure(EmptyName))
      && (Tok(ts, 0) == "{" && KindOf(Tok(ts, 1)).Some? && |ts| == 3 ==> r == Failure(EmptyExt))
      && (Tok(ts, 0) == "{" && KindOf(Tok(ts, 1)).Some? && |ts| >= 4 && Tok(ts, 4) != "}" ==>
            r == Failure(BadClose))
  {
    var ts := Tokens(line);
    TokensAreWords(line);
    assert Tokens(line) == Drop(ts, 0);
    var r1 := NextToken(line).1;
    PeelAt(line, ts, 0);
    var r2 := NextToken(r1).1;
    PeelAt(r1, ts, 1);
    var r3 := NextToken(r2).1;
    PeelAt(r2, ts, 2);
    var r4 := NextToken(r3).1;
    PeelAt(r3, ts, 3);
    PeelAt(r4, ts, 4);
    NextTokenRest(r4);
  }

  /** The keyword of a direction. */
  function Keyword(d: Direction): (kw: string)
    ensures KindOf(kw) == Some(d)
  {
    var kw := if d == In then "input" else "output";
    assert KindOf(kw) == Some(d) by {
      if d == Out { assert kw[0] != "input"[0]; }
    }
    kw
  }

  /** A connector written the way the language spells it: `{ input name ext }`. */
  function ConnectorText(c: Connector): string {
    "{ " + Keyword(c.dir) + " " + c.name + " " + c.ext + " }"
  }

  /** Parsing a written connector gives it back, with the text after it: the
      round trip of the connector grammar. */
  lemma ParseConnectorText(c: Connector, gap: string, rest: string)
    requires Word(c.name) && Word(c.ext) && AllSpace(gap)
    requires rest != [] ==> gap != [] && !IsSpace(rest[0])
    ensures ParseConnector(ConnectorText(c) + gap + rest) == Success((c, rest))
  {
    var r2 := ConnectorHead(c, gap, rest);
    ConnectorTail(c, gap, rest);
  }

  /** The first two tokens of a written connector. */
  lemma ConnectorHead(c: Connector, gap: string, rest: string) returns (r2: string)
    requires Word(c.name)
    ensures r2 == c.name + " " + c.ext + " " + "}" + gap + rest
    ensures var s := ConnectorText(c) + gap + rest;
      && NextToken(s).0 == "{"
      && NextToken(NextToken(s).1).0 == Keyword(c.dir)
      && NextToken(NextToken(s).1).1 == r2
  {
    var kw := Keyword(c.dir);
    r2 := c.name + " " + c.ext + " " + "}" + gap + rest;
    var r1 := kw + " " + r2;
    assert ConnectorText(c) + gap + rest == "{" + " " + r1;
    assert Word("{") && Word(kw);
    NextTokenOf("{", " ", r1);
    assert r1[0] == kw[0];
    assert r2[0] == c.name[0];
    NextTokenOf(kw, " ", r2);
  }

  /** The last three tokens of a written connector, and the text after it. */
  lemma ConnectorTail(c: Connector, gap: string, rest: string)
    requires Word(c.name) && Word(c.ext) && AllSpace(gap)
    requires rest != [] ==> gap != [] && !IsSpace(rest[0])
    ensures var r2 := c.name + " " + c.ext + " " + "}" + gap + rest;
      && NextToken(r2).0 == c.name
      && NextToken(NextToken(r2).1).0 == c.ext
      && NextToken(NextToken(NextToken(r2).1).1) == ("}", rest)
  {
    var r4 := "}" + gap + rest;
    var r3 := c.ext + " " + r4;
    assert c.name + " " + c.ext + " " + "}" + gap + rest == c.name + " " + r3;
    assert r3[0] == c.ext[0];
    NextTokenOf(c.name, " ", r3);
    assert Word("}");
    NextTokenOf(c.ext, " ", r4);
    NextTokenOf("}", gap, rest);
  }

  /** parse_argument_value (parse.py:49-53): a connector when the text starts
      with `{`, otherwise one plain token. */
  function ParseArgumentValue(line: string): (r: Result<(Value, string), ParseError>)
    ensures !StartsWith(line, '{') ==> r.Success?
    ensures r.Success? ==> (r.value.0.Port? <==> StartsWith(line, '{'))
    ensures r.Success? && line != [] ==> |r.value.1| < |line|
    ensures r.Failure? ==> IsConnectorError(r.error)
  {
    if StartsWith(line, '{') then
      var p :- ParseConnector(line);
      Success((Port(p.0), p.1))
    else
      var (t, rest) := NextToken(line);
      Success((Text(t), rest))
  }

  /** parse_positional_argument (parse.py:55-59): one value and nothing after it. */
  function ParsePositionalArgument(line: string): (r: Result<Argument, ParseError>)
    ensures r.Success? ==> r.value.Positional?
    ensures r.Failure? ==> IsConnectorError(r.error) || r.error == ExtraPositional
  {
    var p :- ParseArgumentValue(line);
    if p.1 != [] then Failure(ExtraPositional) else Success(Positional(p.0))
  }

  /** A positional argument line succeeds exactly when its one value is all
      there is: a line of at most one plain token, or a connector of exactly
      five tokens. */
  lemma ParsePositionalTokens(line: string)
    ensures var ts, r := Tokens(line), ParsePositionalArgument(line);
      && (!StartsWith(line, '{') ==>
            (r.Success? <==> |ts| <= 1) &&
            (r.Success? ==> r.value == Positional(Text(Tok(ts, 0)))) &&
            (r.Failure? ==> r.error == ExtraPositional))
      && (StartsWith(line, '{') ==>
            (r.Success? <==> ParseConnector(line).Success? && |ts| == 5) &&
            (r.Success? ==> r.value == Positional(Port(ParseConnector(line).value.0))))
  {
    NextTokenPeels(line);
    NextTokenRestEmpty(line);
    ParseConnectorTokens(line);
    var c := ParseConnector(line);
    if c.Success? {
      NoTokensIffEmpty(c.value.1);
    }
  }

  /** The values parse_optional_argument's loop collects from rest: one value
      at a time until nothing is left, stopping at the first error. */
  function ValuesOf(rest: string): (r: Result<seq<Value>, ParseError>)
    decreases |rest|
  {
    if rest == [] then Success([])
    else
      var p :- ParseArgumentValue(rest);
      var vs :- ValuesOf(p.1);
      Success([p.0] + vs)
  }

  /** What parse_optional_argument returns (parse.py:61-69). */
  function OptionalOf(line: string): (r: Result<Argument, ParseError>)
    ensures r.Success? ==> r.value.Optional? && r.value.flag == NextToken(line).0
    ensures r == Failure(BadFlag) <==> !StartsWith(NextToken(line).0, '-')
    ensures r.Failure? ==> IsConnectorError(r.error) || r.error == BadFlag
  {
    var (flag, rest) := NextToken(line);
    if !StartsWith(flag, '-') then Failure(BadFlag)
    else
      ValuesOfErrors(rest);
      var vs :- ValuesOf(rest);
      Success(Optional(flag, vs))
  }

  /** The values of an optional argument fail only as connectors do. */
  lemma {:induction false} ValuesOfErrors(rest: string)
    ensures ValuesOf(rest).Failure? ==> IsConnectorError(ValuesOf(rest).error)
    decreases |rest|
  {
    if rest != [] && ParseArgumentValue(rest).Success? {
      ValuesOfErrors(ParseArgumentValue(rest).value.1);
    }
  }

  /** r with vs put in front of its values. */
  function Prefixed(vs: seq<Value>, r: Result<seq<Value>, ParseError>): Result<seq<Value>, ParseError> {
    if r.Failure? then r else Success(vs + r.value)
  }

  lemma PrefixedNothing(r: Result<seq<Value>, ParseError>)
    ensures Prefixed([], r) == r
  {
    if r.Success? {
      assert [] + r.value == r.value;
    }
  }

  /** One turn of parse_optional_argument's loop moves one value from what is
      still to parse to what has been collected. */
  lemma PrefixedStep(values: seq<Value>, rest: string)
    requires rest != [] && ParseArgumentValue(rest).Success?
    ensures var p := ParseArgumentValue(rest).value;
      Prefixed(values, ValuesOf(rest)) == Prefixed(values + [p.0], ValuesOf(p.1))
  {
    var p := ParseArgumentValue(rest).value;
    if ValuesOf(p.1).Success? {
      assert values + ([p.0] + ValuesOf(p.1).value) == (values + [p.0]) + ValuesOf(p.1).value;
    }
  }

  /** parse_optional_argument: the flag, then values until the line is used up. */
  method ParseOptionalArgument(line: string) returns (r: Result<Argument, ParseError>)
    ensures r == OptionalOf(line)
  {
    var flag, rest := NextToken(line).0, NextToken(line).1;
    if !StartsWith(flag, '-') {
      return Failure(BadFlag);
    }
    var values: seq<Value> := [];
    PrefixedNothing(ValuesOf(rest));
    while rest != []
      invariant ValuesOf(NextToken(line).1) == Prefixed(values, ValuesOf(rest))
      decreases |rest|
    {
      var p := ParseArgumentValue(rest);
      if p.Failure? {
        return Failure(p.error);
      }
      PrefixedStep(values, rest);
      values := values + [p.value.0];
      rest := p.value.1;
    }
    assert values + [] == values;
    return Success(Optional(flag, values));
  }

  /** No token opens a connector. */
  predicate Plain(ts: seq<string>) {
    forall i :: 0 <= i < |ts| ==> !StartsWith(ts[i], '{')
  }

  /** When no remaining token opens a connector, the values are exactly the
      remaining tokens, as plain words, in order. */
  lemma {:induction false} ValuesOfPlain(rest: string)
    requires rest == [] || !IsSpace(rest[0])
    requires Plain(Tokens(rest))
    ensures ValuesOf(rest) == Success(Texts(Tokens(rest)))
    decreases |rest|
  {
    if rest != [] {
      NextTokenHead(rest);
      NextTokenPeels(rest);
      NextTokenRest(rest);
      var t, r := NextToken(rest).0, NextToken(rest).1;
      var ts := Tokens(rest);
      assert ts != [] && ts[0] == t;
      assert Tokens(r) == ts[1..];
      assert Plain(ts[1..]) by {
        assert forall i :: 0 <= i < |ts| - 1 ==> ts[1..][i] == ts[i + 1];
      }
      ValuesOfPlain(r);
      assert !StartsWith(rest, '{') by {
        assert !StartsWith(ts[0], '{');
      }
      assert ParseArgumentValue(rest) == Success((Text(t), r));
    } else {
      NoTokensIffEmpty(rest);
    }
  }

  /** parse_optional_argument on a line without connectors: the flag is the
      first token and every further token is a value, in order. */
  lemma OptionalOfPlain(line: string)
    requires StartsWith(Tok(Tokens(line), 0), '-')
    requires Plain(Tokens(line)[1..])
    ensures OptionalOf(line) == Success(Optional(Tokens(line)[0], Texts(Tokens(line)[1..])))
  {
    NextTokenPeels(line);
    NextTokenRest(line);
    var ts, rest := Tokens(line), NextToken(line).1;
    assert Tokens(rest) == ts[1..];
    ValuesOfPlain(rest);
  }

  /** Plain words as values. */
  function Texts(ts: seq<string>): (vs: seq<Value>)
    ensures |vs| == |ts| && forall i :: 0 <= i < |ts| ==> vs[i] == Text(ts[i])
  {
    if ts == [] then [] else [Text(ts[0])] + Texts(ts[1..])
  }

  /** The argument parse_step builds from one line: optional iff the line
      starts with `-` (parse.py:84-87). */
  function ArgumentOf(line: string): (r: Result<Argument, ParseError>)
    ensures r.Success? ==> (r.value.Optional? <==> StartsWith(line, '-'))
    ensures r.Failure? ==> IsArgumentError(r.error)
  {
    if StartsWith(line, '-') then OptionalOf(line) else ParsePositionalArgument(line)
  }

  /** What parse_step returns (parse.py:71-89). */
  function StepOf(lines: seq<string>): (r: Result<Step, ParseError>)
  {
    if |lines| == 0 then Failure(MissingLine)
    else
      var (name, nameRest) := NextToken(lines[0]);
      if nameRest != [] then Failure(NameNotAlone)
      else if |lines| == 1 then Failure(MissingLine)
      else
        var (prog, progRest) := NextToken(lines[1]);
        if progRest != [] then Failure(ProgNotAlone)
        else
          var args :- MapResult(lines[2..], ArgumentOf);
          Success(Step(name, prog, args))
  }

  /** parse_step: the name line, the prog line, then one argument per line. */
  method ParseStep(lines: seq<string>) returns (r: Result<Step, ParseError>)
    ensures r == StepOf(lines)
  {
    if |lines| == 0 {
      return Failure(MissingLine);
    }
    var name, nameRest := NextToken(lines[0]).0, NextToken(lines[0]).1;
    if nameRest != [] {
      return Failure(NameNotAlone);
    }
    if |lines| == 1 {
      return Failure(MissingLine);
    }
    var prog, progRest := NextToken(lines[1]).0, NextToken(lines[1]).1;
    if progRest != [] {
      return Failure(ProgNotAlone);
    }
    ghost var body := lines[2..];
    var args: seq<Argument> := [];
    for i := 2 to |lines|
      invariant MapResult(body[..i - 2], ArgumentOf) == Success(args)
    {
      var line := lines[i];
      var arg: Result<Argument, ParseError>;
      if StartsWith(line, '-') {
        arg := ParseOptionalArgument(line);
      } else {
        arg := ParsePositionalArgument(line);
      }
      assert body[i - 2] == line;
      MapResultStep(body, i - 2, ArgumentOf);
      if arg.Failure? {
        MapResultPrefixFailure(body, i - 1, ArgumentOf);
        return Failure(arg.error);
      }
      args := args + [arg.value];
    }
    assert body[..|lines| - 2] == body;
    return Success(Step(name, prog, args));
  }

  /** parse_step fails when the paragraph has no prog line, when name or prog
      do not stand alone, or with the error of an argument line; it succeeds
      exactly when none of these happens. */
  lemma StepOfFails(lines: seq<string>)
    ensures var r := StepOf(lines);
      && (|lines| < 2 && (|lines| == 0 || |Tokens(lines[0])| <= 1) ==> r == Failure(MissingLine))
      && (|lines| >= 1 && |Tokens(lines[0])| > 1 ==> r == Failure(NameNotAlone))
      && (|lines| >= 2 && |Tokens(lines[0])| <= 1 && |Tokens(lines[1])| > 1 ==> r == Failure(ProgNotAlone))
      && (r.Success? <==>
            |lines| >= 2 && |Tokens(lines[0])| <= 1 && |Tokens(lines[1])| <= 1
            && forall i :: 2 <= i < |lines| ==> ArgumentOf(lines[i]).Success?)
      && (r.Failure? ==>
            r.error in {MissingLine, NameNotAlone, ProgNotAlone} || IsArgumentError(r.error))
  {
    if |lines| >= 1 {
      NextTokenRestEmpty(lines[0]);
    }
    if |lines| >= 2 {
      NextTokenRestEmpty(lines[1]);
      var body := lines[2..];
      MapResultSpec(body, ArgumentOf);
      assert forall i :: 2 <= i < |lines| ==> lines[i] == body[i - 2];
      if MapResult(body, ArgumentOf).Failure? {
        var k := FirstFailure(body, ArgumentOf);
        assert IsArgumentError(ArgumentOf(body[k]).error);
      }
    }
  }

  /** On success parse_step builds one argument per line after the prog line,
      in order, optional exactly for the lines that start with `-`. */
  lemma StepOfSucceeds(lines: seq<string>)
    requires StepOf(lines).Success?
    ensures var s := StepOf(lines).value;
      && s.name == Tok(Tokens(lines[0]), 0)
      && s.prog == Tok(Tokens(lines[1]), 0)
      && |s.args| == |lines| - 2
      && forall i :: 2 <= i < |lines| ==>
           ArgumentOf(lines[i]) == Success(s.args[i - 2])
           && (s.args[i - 2].Optional? <==> StartsWith(lines[i], '-'))
  {
    NextTokenPeels(lines[0]);
    NextTokenPeels(lines[1]);
    var body := lines[2..];
    MapResultSpec(body, ArgumentOf);
    assert forall i :: 2 <= i < |lines| ==> lines[i] == body[i - 2];
  }

  /** The connection one line of a workflow paragraph describes
      (parse.py:100-107): five tokens, the third (the arrow) unchecked. */
  function ConnectionOf(line: string): (r: Result<Connection, ParseError>)
  {
    var (fromStep, r1) := NextToken(line);
    var (fromOutput, r2) := NextToken(r1);
    var (_, r3) := NextToken(r2);
    var (toStep, r4) := NextToken(r3);
    var (toInput, r5) := NextToken(r4);
    if r5 != [] then Failure(TooManyTokens)
    else Success(Connection(fromStep, fromOutput, toStep, toInput))
  }

  /** A connection line fails exactly when it has more than five tokens; the
      connection takes tokens one, two, four and five, "" for each one that is
      missing, and the third token plays no part. */
  lemma ConnectionOfTokens(line: string)
    ensures var ts, r := Tokens(line), ConnectionOf(line);
      && (r.Success? <==> |ts| <= 5)
      && (r.Failure? ==> r.error == TooManyTokens)
      && (r.Success? ==> r.value == Connection(Tok(ts, 0), Tok(ts, 1), Tok(ts, 3), Tok(ts, 4)))
  {
    var ts := Tokens(line);
    assert Tokens(line) == Drop(ts, 0);
    var r1 := NextToken(line).1;
    PeelAt(line, ts, 0);
    var r2 := NextToken(r1).1;
    PeelAt(r1, ts, 1);
    var r3 := NextToken(r2).1;
    PeelAt(r2, ts, 2);
    var r4 := NextToken(r3).1;
    PeelAt(r3, ts, 3);
    PeelAt(r4, ts, 4);
    NextTokenRest(r4);
    NoTokensIffEmpty(NextToken(r4).1);
  }

  /** What parse_workflow returns (parse.py:91-108). */
  function WorkflowOf(lines: seq<string>): (r: Result<UnresolvedWorkflow, ParseError>)
  {
    if |lines| == 0 then Failure(MissingLine)
    else
      var (name, nameRest) := NextToken(lines[0]);
      if nameRest != [] then Failure(NameNotAlone)
      else
        var cs :- MapResult(lines[1..], ConnectionOf);
        Success(UnresolvedWorkflow(name, cs))
  }

  /** parse_workflow: the name line, then one connection per line. */
  method ParseWorkflow(lines: seq<string>) returns (r: Result<UnresolvedWorkflow, ParseError>)
    ensures r == WorkflowOf(lines)
  {
    if |lines| == 0 {
      return Failure(MissingLine);
    }
    var name, nameRest := NextToken(lines[0]).0, NextToken(lines[0]).1;
    if nameRest != [] {
      return Failure(NameNotAlone);
    }
    ghost var body := lines[1..];
    var connections: seq<Connection> := [];
    for i := 1 to |lines|
      invariant MapResult(body[..i - 1], ConnectionOf) == Success(connections)
    {
      var c := ConnectionOf(lines[i]);
      assert body[i - 1] == lines[i];
      MapResultStep(body, i - 1, ConnectionOf);
      if c.Failure? {
        MapResultPrefixFailure(body, i, ConnectionOf);
        return Failure(c.error);
      }
      connections := connections + [c.value];
    }
    assert body[..|lines| - 1] == body;
    return Success(UnresolvedWorkflow(name, connections));
  }

  /** parse_workflow fails only when the paragraph is empty, the name does not
      stand alone, or a connection line has more than five tokens. */
  lemma WorkflowOfFails(lines: seq<string>)
    ensures var r := WorkflowOf(lines);
      && (|lines| == 0 ==> r == Failure(MissingLine))
      && (|lines| >= 1 && |Tokens(lines[0])| > 1 ==> r == Failure(NameNotAlone))
      && (r.Success? <==>
            |lines| >= 1 && |Tokens(lines[0])| <= 1
            && forall i :: 1 <= i < |lines| ==> |Tokens(lines[i])| <= 5)
      && (r.Failure? ==> r.error in {MissingLine, NameNotAlone, TooManyTokens})
  {
    if |lines| >= 1 {
      NextTokenRestEmpty(lines[0]);
      var body := lines[1..];
      ConnectionsOfSpec(body);
      assert forall i :: 1 <= i < |lines| ==> lines[i] == body[i - 1];
    }
  }

  /** On success parse_workflow keeps one connection per line after the name
      line, in order. */
  lemma WorkflowOfSucceeds(lines: seq<string>)
    requires WorkflowOf(lines).Success?
    ensures var w := WorkflowOf(lines).value;
      && w.name == Tok(Tokens(lines[0]), 0)
      && |w.connections| == |lines| - 1
      && forall i :: 1 <= i < |lines| ==> ConnectionOf(lines[i]) == Success(w.connections[i - 1])
  {
    NextTokenPeels(lines[0]);
    var body := lines[1..];
    ConnectionsOfSpec(body);
    assert forall i :: 1 <= i < |lines| ==> lines[i] == body[i - 1];
  }

  /** The connection lines of a workflow paragraph, taken together. */
  lemma ConnectionsOfSpec(body: seq<string>)
    ensures var r := MapResult(body, ConnectionOf);
      && (r.Success? <==> forall i :: 0 <= i < |body| ==> |Tokens(body[i])| <= 5)
      && (r.Failure? ==> r.error == TooManyTokens)
      && (r.Success? ==>
            |r.value| == |body| && forall i :: 0 <= i < |body| ==> ConnectionOf(body[i]) == Success(r.value[i]))
  {
    MapResultSpec(body, ConnectionOf);
    forall i | 0 <= i < |body|
      ensures ConnectionOf(body[i]).Success? <==> |Tokens(body[i])| <= 5
    {
      ConnectionOfTokens(body[i]);
    }
    if MapResult(body, ConnectionOf).Failure? {
      ConnectionOfTokens(body[FirstFailure(body, ConnectionOf)]);
    }
  }


  /** What parse_paragraph returns (parse.py:115-124): the keyword on the first
      line picks the sub-parser, which sees the paragraph with the keyword
      removed. */
  function ParagraphOf(lines: seq<string>): (r: Result<Definition, ParseError>)
    ensures |lines| == 0 ==> r == Failure(MissingLine)
    ensures r.Success? ==>
      && |lines| > 0
      && (r.value.StepDef? <==> NextToken(lines[0]).0 == "step")
      && (r.value.WorkflowDef? <==> NextToken(lines[0]).0 == "workflow")
  {
    if |lines| == 0 then Failure(MissingLine)
    else
      var (cmd, rest) := NextToken(lines[0]);
      var body := [rest] + lines[1..];
      if cmd == "step" then
        var s :- StepOf(body);
        Success(StepDef(s))
      else if cmd == "workflow" then
        var w :- WorkflowOf(body);
        Success(WorkflowDef(w))
      else
        Failure(BadKeyword)
  }

  /** parse_paragraph as the dispatch Document.Parse calls: ParagraphOf, with
      the sub-parsers' loops run as the methods above. */
  method ParseParagraph(lines: seq<string>) returns (r: Result<Definition, ParseError>)
    ensures r == ParagraphOf(lines)
  {
    if |lines| == 0 {
      return Failure(MissingLine);
    }
    var cmd, rest := NextToken(lines[0]).0, NextToken(lines[0]).1;
    var body := [rest] + lines[1..];
    if cmd == "step" {
      var s := ParseStep(body);
      if s.Failure? {
        return Failure(s.error);
      }
      return Success(StepDef(s.value));
    } else if cmd == "workflow" {
      var w := ParseWorkflow(body);
      if w.Failure? {
        return Failure(w.error);
      }
      return Success(WorkflowDef(w.value));
    } else {
      return Failure(BadKeyword);
    }
  }

  /** A paragraph whose first token is neither `step` nor `workflow` is
      rejected, whatever follows. */
  lemma ParagraphKeyword(lines: seq<string>)
    requires |lines| > 0
    ensures ParagraphOf(lines) == Failure(BadKeyword) <==>
      Tok(Tokens(lines[0]), 0) != "step" && Tok(Tokens(lines[0]), 0) != "workflow"
  {
    NextTokenPeels(lines[0]);
    var cmd, rest := NextToken(lines[0]).0, NextToken(lines[0]).1;
    var body := [rest] + lines[1..];
    if cmd == "step" {
      StepOfFails(body);
    } else if cmd == "workflow" {
      WorkflowOfFails(body);
    }
  }

  /** `step NAME` on the first line parses like `NAME` alone: the keyword is
      cut off before the step parser runs. A bare `step` gives the name "". */
  lemma ParagraphOfStep(first: string, gap: string, lines: seq<string>)
    requires AllSpace(gap)
    requires first != [] ==> gap != [] && !IsSpace(first[0])
    ensures ParagraphOf(["step" + gap + first] + lines) ==
      match StepOf([first] + lines)
      case Success(s) => Success(StepDef(s))
      case Failure(e) => Failure(e)
  {
    assert Word("step");
    NextTokenOf("step", gap, first);
    assert ([first] + lines)[1..] == lines;
    assert (["step" + gap + first] + lines)[1..] == lines;
  }

  /** `workflow NAME` on the first line parses like `NAME` alone. */
  lemma ParagraphOfWorkflow(first: string, gap: string, lines: seq<string>)
    requires AllSpace(gap)
    requires first != [] ==> gap != [] && !IsSpace(first[0])
    ensures ParagraphOf(["workflow" + gap + first] + lines) ==
      match WorkflowOf([first] + lines)
      case Success(w) => Success(WorkflowDef(w))
      case Failure(e) => Failure(e)
  {
    assert Word("workflow");
    NextTokenOf("workflow", gap, first);
    assert ([first] + lines)[1..] == lines;
    assert (["workflow" + gap + first] + lines)[1..] == lines;
  }
}

=== FILE: queries.dfy ===
/** What the read-only properties of a Workflow (src/wfrcwflib/workflow.py:99-145)
    compute from its state: connections_out, inputs, outputs, dag, order and
    edges, each specified on a State value. */
module Queries {
  import opened Wrappers
  import opened Ast
  import opened Graph

  /** The entry of k exists and names a producer. */
  predicate Wired(g: State, k: Port) {
    k in g.links && g.links[k].Some?
  }

  // ---------------------------------------------------------------- inputs

  /** inputs (workflow.py:111-115): the unresolved entries, in dict order. */
  function InputsOf(g: State): seq<Port> {
    Unresolved(g, |g.keys|)
  }

  /** The unresolved entries among the first n keys. */
  function Unresolved(g: State, n: nat): seq<Port>
    requires n <= |g.keys|
  {
    if n == 0 then []
    else
      var k := g.keys[n - 1];
      Unresolved(g, n - 1) + (if k in g.links && g.links[k].None? then [k] else [])
  }

  lemma {:induction false} UnresolvedMember(g: State, n: nat, p: Port)
    requires n <= |g.keys|
    ensures p in Unresolved(g, n) <==> p in g.keys[..n] && p in g.links && g.links[p].None?
  {
    if n > 0 {
      UnresolvedMember(g, n - 1, p);
      assert g.keys[..n] == g.keys[..n - 1] + [g.keys[n - 1]];
    }
  }

  lemma {:induction false} UnresolvedDistinct(g: State, n: nat)
    requires WellFormed(g) && n <= |g.keys|
    ensures Distinct(Unresolved(g, n))
  {
    if n > 0 {
      UnresolvedDistinct(g, n - 1);
      UnresolvedMember(g, n - 1, g.keys[n - 1]);
    }
  }

  /** inputs lists each port whose entry is None exactly once. */
  lemma InputsSpec(g: State)
    requires WellFormed(g)
    ensures forall p :: p in InputsOf(g) <==> p in g.links && g.links[p] == None
    ensures Distinct(InputsOf(g))
  {
    UnresolvedDistinct(g, |g.keys|);
    assert g.keys[..|g.keys|] == g.keys;
    forall p {
      UnresolvedMember(g, |g.keys|, p);
    }
  }

  // --------------------------------------------------------- connections_out

  /** The output ports of one step. */
  function StepPorts(s: Step): set<Port> {
    set o | o in Outputs(s) :: (s.name, o.name)
  }

  /** The keys connections_out starts from: every output port of every active
      step the registry knows. */
  function Declared(reg: Registry, steps: set<string>): set<Port> {
    set s, p | s in steps && s in reg && p in StepPorts(reg[s]) :: p
  }

  /** The keys among the first n that are wired to p, in dict order. */
  function Consumers(g: State, p: Port, n: nat): seq<Port>
    requires n <= |g.keys|
  {
    if n == 0 then []
    else
      var k := g.keys[n - 1];
      Consumers(g, p, n - 1) + (if k in g.links && g.links[k] == Some(p) then [k] else [])
  }

  /** The first of the first n keys wired to a producer outside d. */
  function Undeclared(g: State, d: set<Port>, n: nat): (r: Option<nat>)
    requires n <= |g.keys|
    ensures r.Some? ==> r.value < n && Wired(g, g.keys[r.value]) && g.links[g.keys[r.value]].value !in d
    ensures r.Some? ==> forall i :: 0 <= i < r.value ==> !(Wired(g, g.keys[i]) && g.links[g.keys[i]].value !in d)
    ensures r.None? ==> forall i :: 0 <= i < n ==> !(Wired(g, g.keys[i]) && g.links[g.keys[i]].value !in d)
  {
    if n == 0 then None
    else
      var u := Undeclared(g, d, n - 1);
      var k := g.keys[n - 1];
      if u.Some? then u
      else if Wired(g, k) && g.links[k].value !in d then Some(n - 1)
      else None
  }

  /** connections_out (workflow.py:99-109) once every active step is
      registered: each declared output port mapped to the ports wired to it, in
      dict order, or the KeyError for the first entry naming an undeclared
      producer. */
  function OutSpec(reg: Registry, g: State): (r: Result<map<Port, seq<Port>>, GraphError>)
    ensures r.Success? ==> r.value == ConsumerMap(g, Declared(reg, g.active))
  {
    var d := Declared(reg, g.active);
    match Undeclared(g, d, |g.keys|)
    case Some(i) => Failure(UnknownOutput(g.links[g.keys[i]].value))
    case None => Success(ConsumerMap(g, d))
  }

  /** The declared ports, each mapped to its consumers in dict order. */
  function ConsumerMap(g: State, d: set<Port>): (m: map<Port, seq<Port>>)
    ensures m.Keys == d
    ensures forall p :: p in m ==> m[p] == Consumers(g, p, |g.keys|)
  {
    ConsumerMapUpTo(g, d, |g.keys|)
  }

  /** The declared ports, each mapped to its consumers among the first n keys. */
  function ConsumerMapUpTo(g: State, d: set<Port>, n: nat): map<Port, seq<Port>>
    requires n <= |g.keys|
  {
    map p | p in d :: Consumers(g, p, n)
  }

  lemma {:induction false} ConsumersMember(g: State, p: Port, n: nat, q: Port)
    requires n <= |g.keys|
    ensures q in Consumers(g, p, n) <==> q in g.keys[..n] && q in g.links && g.links[q] == Some(p)
  {
    if n > 0 {
      ConsumersMember(g, p, n - 1, q);
      assert g.keys[..n] == g.keys[..n - 1] + [g.keys[n - 1]];
    }
  }

  lemma {:induction false} ConsumersDistinct(g: State, p: Port, n: nat)
    requires WellFormed(g) && n <= |g.keys|
    ensures Distinct(Consumers(g, p, n))
  {
    if n > 0 {
      ConsumersDistinct(g, p, n - 1);
      ConsumersMember(g, p, n - 1, g.keys[n - 1]);
    }
  }

  /** connections_out fails exactly when some entry names a producer that no
      active step declares, and then with that producer. */
  lemma OutSpecFails(reg: Registry, g: State)
    requires WellFormed(g)
    ensures OutSpec(reg, g).Success? <==>
      forall k :: Wired(g, k) ==> g.links[k].value in Declared(reg, g.active)
    ensures OutSpec(reg, g).Failure? ==> exists k :: (Wired(g, k)
      && OutSpec(reg, g).error == UnknownOutput(g.links[k].value)
      && g.links[k].value !in Declared(reg, g.active))
  {
    if OutSpec(reg, g).Failure? {
      var i := Undeclared(g, Declared(reg, g.active), |g.keys|).value;
      assert Wired(g, g.keys[i]);
    }
  }

  /** What connections_out holds on success: each declared port lists every
      port wired to it, exactly once. */
  lemma ConsumerMapSpec(g: State, d: set<Port>)
    requires WellFormed(g)
    ensures forall p :: p in ConsumerMap(g, d) ==> Distinct(ConsumerMap(g, d)[p])
    ensures forall p, q :: p in ConsumerMap(g, d) ==>
      (q in ConsumerMap(g, d)[p] <==> q in g.links && g.links[q] == Some(p))
  {
    var m := ConsumerMap(g, d);
    var n := |g.keys|;
    assert g.keys[..n] == g.keys;
    forall p, q | p in m
      ensures q in m[p] <==> q in g.links && g.links[q] == Some(p)
    {
      ConsumersMember(g, p, n, q);
    }
    forall p | p in m
      ensures Distinct(m[p])
    {
      ConsumersDistinct(g, p, n);
    }
  }

  /** The ports outputs yields from a connections_out result. */
  function OutputsOf(m: map<Port, seq<Port>>): set<Port> {
    set p | p in m && m[p] == []
  }

  /** outputs (workflow.py:117-121): the declared output ports nothing is wired
      to. */
  lemma OutputsSpec(reg: Registry, g: State)
    requires WellFormed(g)
    requires OutSpec(reg, g).Success?
    ensures forall p :: p in OutputsOf(OutSpec(reg, g).value) <==>
      p in Declared(reg, g.active) && forall q :: q in g.links ==> g.links[q] != Some(p)
  {
    var m := OutSpec(reg, g).value;
    ConsumerMapSpec(g, Declared(reg, g.active));
    forall p | p in m && m[p] != []
      ensures exists q :: q in g.links && g.links[q] == Some(p)
    {
      var q := m[p][0];
      assert q in m[p];
      assert q in g.links && g.links[q] == Some(p);
    }
  }

  // -------------------------------------------------------------------- dag

  /** The producing steps of step s's entries among the first n keys. */
  function Producers(g: State, s: string, n: nat): set<string>
    requires n <= |g.keys|
  {
    set i | 0 <= i < n && Wired(g, g.keys[i]) && g.keys[i].0 == s :: g.links[g.keys[i]].value.0
  }

  /** The first of the first n keys that is wired but whose step is not active. */
  function Stray(g: State, n: nat): (r: Option<nat>)
    requires n <= |g.keys|
    ensures r.Some? ==> r.value < n && Wired(g, g.keys[r.value]) && g.keys[r.value].0 !in g.active
    ensures r.Some? ==> forall i :: 0 <= i < r.value ==> !(Wired(g, g.keys[i]) && g.keys[i].0 !in g.active)
    ensures r.None? ==> forall i :: 0 <= i < n ==> !(Wired(g, g.keys[i]) && g.keys[i].0 !in g.active)
  {
    if n == 0 then None
    else
      var u := Stray(g, n - 1);
      var k := g.keys[n - 1];
      if u.Some? then u
      else if Wired(g, k) && k.0 !in g.active then Some(n - 1)
      else None
  }

  /** dag (workflow.py:123-132): each active step mapped to the steps producing
      its inputs, or the KeyError for the first wired entry of an inactive step. */
  function DagSpec(g: State): Result<map<string, set<string>>, GraphError> {
    match Stray(g, |g.keys|)
    case Some(i) => Failure(UnknownStep(g.keys[i].0))
    case None => Success(ProducerMap(g))
  }

  /** Each active step mapped to its producing steps. */
  function ProducerMap(g: State): (m: map<string, set<string>>)
    ensures m.Keys == g.active
    ensures forall s :: s in m ==> m[s] == Producers(g, s, |g.keys|)
  {
    ProducerMapUpTo(g, |g.keys|)
  }

  /** Each active step mapped to its producing steps among the first n keys. */
  function ProducerMapUpTo(g: State, n: nat): map<string, set<string>>
    requires n <= |g.keys|
  {
    map s | s in g.active :: Producers(g, s, n)
  }

  /** What dag means: it fails exactly when a wired entry belongs to an inactive
      step; otherwise its keys are the active steps, and a is a predecessor of
      b exactly when some input of b is wired to an output of a. */
  lemma DagMeaning(g: State)
    requires WellFormed(g)
    ensures DagSpec(g).Success? <==> forall k :: Wired(g, k) ==> k.0 in g.active
    ensures DagSpec(g).Success? ==>
      var dag := DagSpec(g).value;
      && dag.Keys == g.active
      && forall a, b :: b in dag ==> (a in dag[b] <==> exists k :: Wired(g, k) && k.0 == b && g.links[k].value.0 == a)
  {
    if DagSpec(g).Failure? {
      var i := Stray(g, |g.keys|).value;
      assert Wired(g, g.keys[i]);
    } else {
      forall a, b | b in g.active && exists k :: Wired(g, k) && k.0 == b && g.links[k].value.0 == a
        ensures a in Producers(g, b, |g.keys|)
      {
        var k :| Wired(g, k) && k.0 == b && g.links[k].value.0 == a;
        var i :| 0 <= i < |g.keys| && g.keys[i] == k;
      }
    }
  }

  /** On a workflow whose registry is keyed, dag never fails. */
  lemma DagCovered(reg: Registry, g: State)
    requires Covered(reg, g)
    ensures DagSpec(g).Success?
  {
    DagMeaning(g);
  }

  // ------------------------------------------------------------------ edges

  /** edges (workflow.py:139-145): (producing step, consuming step) for each
      wired entry, in dict order. */
  function EdgesOf(g: State): seq<(string, string)> {
    EdgesUpTo(g, |g.keys|)
  }

  function EdgesUpTo(g: State, n: nat): seq<(string, string)>
    requires n <= |g.keys|
  {
    if n == 0 then []
    else
      var k := g.keys[n - 1];
      EdgesUpTo(g, n - 1) + (if Wired(g, k) then [(g.links[k].value.0, k.0)] else [])
  }

  lemma {:induction false} EdgesUpToMember(g: State, n: nat, e: (string, string))
    requires n <= |g.keys|
    ensures e in EdgesUpTo(g, n) <==>
      exists i :: 0 <= i < n && Wired(g, g.keys[i]) && e == (g.links[g.keys[i]].value.0, g.keys[i].0)
  {
    if n > 0 {
      EdgesUpToMember(g, n - 1, e);
    }
  }

  /** The wired entries among the first n keys, in dict order. */
  function WiredUpTo(g: State, n: nat): seq<Port>
    requires n <= |g.keys|
  {
    if n == 0 then []
    else WiredUpTo(g, n - 1) + (if Wired(g, g.keys[n - 1]) then [g.keys[n - 1]] else [])
  }

  lemma {:induction false} WiredUpToMember(g: State, n: nat, p: Port)
    requires n <= |g.keys|
    ensures p in WiredUpTo(g, n) <==> p in g.keys[..n] && Wired(g, p)
  {
    if n > 0 {
      WiredUpToMember(g, n - 1, p);
      assert g.keys[..n] == g.keys[..n - 1] + [g.keys[n - 1]];
    }
  }

  lemma {:induction false} WiredUpToDistinct(g: State, n: nat)
    requires WellFormed(g) && n <= |g.keys|
    ensures Distinct(WiredUpTo(g, n))
  {
    if n > 0 {
      WiredUpToDistinct(g, n - 1);
      WiredUpToMember(g, n - 1, g.keys[n - 1]);
    }
  }

  /** The j-th edge among the first n keys comes from the j-th wired entry. */
  lemma {:induction false} EdgesUpToWired(g: State, n: nat)
    requires n <= |g.keys|
    ensures |EdgesUpTo(g, n)| == |WiredUpTo(g, n)|
    ensures forall j :: 0 <= j < |WiredUpTo(g, n)| ==>
      var k := WiredUpTo(g, n)[j];
      Wired(g, k) && EdgesUpTo(g, n)[j] == (g.links[k].value.0, k.0)
  {
    if n > 0 {
      EdgesUpToWired(g, n - 1);
    }
  }

  /** edges lists one (producer, consumer) pair per wired entry of
      connections_in, each entry once and in dict order: the j-th pair comes
      from the j-th wired entry. */
  lemma EdgesSpec(g: State)
    requires WellFormed(g)
    ensures forall p :: p in WiredUpTo(g, |g.keys|) <==> Wired(g, p)
    ensures Distinct(WiredUpTo(g, |g.keys|))
    ensures |EdgesOf(g)| == |WiredUpTo(g, |g.keys|)|
    ensures forall j :: 0 <= j < |EdgesOf(g)| ==>
      var k := WiredUpTo(g, |g.keys|)[j];
      Wired(g, k) && EdgesOf(g)[j] == (g.links[k].value.0, k.0)
  {
    assert g.keys[..|g.keys|] == g.keys;
    forall p {
      WiredUpToMember(g, |g.keys|, p);
    }
    WiredUpToDistinct(g, |g.keys|);
    EdgesUpToWired(g, |g.keys|);
  }

  /** edges and dag agree: (a, b) is an edge exactly when a is among b's
      predecessors in the dag. */
  lemma EdgesMatchDag(g: State)
    requires WellFormed(g)
    requires DagSpec(g).Success?
    ensures forall a, b :: (a, b) in EdgesOf(g) <==> b in DagSpec(g).value && a in DagSpec(g).value[b]
  {
    DagMeaning(g);
    forall a, b
      ensures (a, b) in EdgesOf(g) <==> b in DagSpec(g).value && a in DagSpec(g).value[b]
    {
      EdgesUpToMember(g, |g.keys|, (a, b));
      if (a, b) in EdgesOf(g) {
        var i :| 0 <= i < |g.keys| && Wired(g, g.keys[i]) && (a, b) == (g.links[g.keys[i]].value.0, g.keys[i].0);
        assert Wired(g, g.keys[i]) && g.keys[i].0 == b && g.links[g.keys[i]].value.0 == a;
      }
      if b in DagSpec(g).value && a in DagSpec(g).value[b] {
        var k :| Wired(g, k) && k.0 == b && g.links[k].value.0 == a;
        var i :| 0 <= i < |g.keys| && g.keys[i] == k;
        assert Wired(g, g.keys[i]) && (a, b) == (g.links[g.keys[i]].value.0, g.keys[i].0);
      }
    }
  }

  // ------------------------------------------------------------------ order

  /** The nodes graphlib sorts: the dag's keys and every predecessor named. */
  function Nodes(dag: map<string, set<string>>): set<string> {
    dag.Keys + set s, p | s in dag && p in dag[s] :: p
  }

  function Preds(dag: map<string, set<string>>, n: string): set<string> {
    if n in dag then dag[n] else {}
  }

  /** A topological order of dag: every node exactly once, each after all of
      its predecessors. */
  ghost predicate IsOrder(dag: map<string, set<string>>, o: seq<string>) {
    && Distinct(o)
    && (forall n :: n in o <==> n in Nodes(dag))
    && forall i, j :: 0 <= i < |o| && 0 <= j < |o| && o[j] in Preds(dag, o[i]) ==> j < i
  }

  /** A non-empty set of nodes each of which has a predecessor in the set: what
      is left when no node is ready, and what graphlib reports as a cycle. */
  ghost predicate Stuck(dag: map<string, set<string>>, rem: set<string>) {
    && rem != {}
    && rem <= Nodes(dag)
    && forall n :: n in rem ==> !(Preds(dag, n) !! rem)
  }

  lemma PredsInNodes(dag: map<string, set<string>>, n: string)
    ensures Preds(dag, n) <= Nodes(dag)
  {
    forall p | p in Preds(dag, n)
      ensures p in Nodes(dag)
    {
      assert n in dag && p in dag[n];
    }
  }

  /** The position of the first element of o that lies in rem. */
  function FirstIn(o: seq<string>, rem: set<string>): (i: nat)
    requires exists k :: 0 <= k < |o| && o[k] in rem
    ensures i < |o| && o[i] in rem
    ensures forall k :: 0 <= k < i ==> o[k] !in rem
  {
    if o[0] in rem then 0
    else
      var k :| 0 <= k < |o| && o[k] in rem;
      assert o[1..][k - 1] == o[k];
      1 + FirstIn(o[1..], rem)
  }

  /** A predecessor, inside the stuck set, of one of its members. */
  lemma StuckPred(dag: map<string, set<string>>, rem: set<string>, n: string) returns (p: string)
    requires Stuck(dag, rem) && n in rem
    ensures p in Preds(dag, n) && p in rem && p in Nodes(dag)
  {
    var a := Preds(dag, n);
    assert !(a !! rem);
    p :| p in a && p in rem;
  }

  /** A stuck set rules out every topological order: its earliest member would
      need a predecessor from the set placed before it. */
  lemma StuckHasNoOrder(dag: map<string, set<string>>, rem: set<string>, o: seq<string>)
    requires Stuck(dag, rem)
    ensures !IsOrder(dag, o)
  {
    if forall n :: n in o <==> n in Nodes(dag) {
      var n :| n in rem;
      var k :| 0 <= k < |o| && o[k] == n;
      var i := FirstIn(o, rem);
      var p := StuckPred(dag, rem, o[i]);
      var j :| 0 <= j < |o| && o[j] == p;
      assert o[j] in Preds(dag, o[i]) && i <= j;
    }
  }

  /** On a covered workflow the nodes order sorts are exactly the active steps,
      so a topological order of the dag lists each active step exactly once. */
  lemma DagNodesActive(reg: Registry, g: State)
    requires Covered(reg, g)
    ensures DagSpec(g).Success? && Nodes(DagSpec(g).value) == g.active
  {
    DagMeaning(g);
  }

  /** graphlib.TopologicalSorter(dag).static_order(), as Kahn's algorithm:
      repeatedly emit some node all of whose predecessors have been emitted. */
  method TopoSort(dag: map<string, set<string>>) returns (r: Result<seq<string>, GraphError>)
    ensures r.Success? ==> IsOrder(dag, r.value)
    ensures r.Failure? ==> r.error.Cycle? && Stuck(dag, r.error.steps)
  {
    var order: seq<string> := [];
    var rem := Nodes(dag);
    while rem != {}
      invariant rem <= Nodes(dag)
      invariant forall n :: n in order <==> n in Nodes(dag) && n !in rem
      invariant Distinct(order)
      invariant forall i :: 0 <= i < |order| ==> Preds(dag, order[i]) !! rem
      invariant forall i, j :: 0 <= i < |order| && 0 <= j < |order| && order[j] in Preds(dag, order[i]) ==> j < i
      decreases |rem|
    {
      if n :| n in rem && Preds(dag, n) !! rem {
        PredsInNodes(dag, n);
        order := order + [n];
        rem := rem - {n};
      } else {
        return Failure(Cycle(rem));
      }
    }
    return Success(order);
  }

  /** order (workflow.py:134-137) has a result exactly when dag has a topological
      order: TopoSort either returns one or proves there is none. */
  lemma OrderExistsUnlessStuck(dag: map<string, set<string>>, rem: set<string>)
    requires Stuck(dag, rem)
    ensures forall o :: !IsOrder(dag, o)
  {
    forall o {
      StuckHasNoOrder(dag, rem, o);
    }
  }

  /** The inputs of a resolved workflow are exactly the declared inputs of the
      steps its connections name that no connection writes. */
  lemma ResolvedInputs(reg: Registry, cs: seq<Connection>, p: Port)
    requires Keyed(reg) && Resolved(reg, cs).Success?
    ensures p in InputsOf(Resolved(reg, cs).value) <==>
      Writer(cs, p).None? && p.0 in Names(cs) && p.0 in reg && p.1 in InputNames(reg[p.0])
  {
    var h := Resolved(reg, cs).value;
    ResolvedSpec(reg, cs);
    ResolvedEntries(reg, cs, p);
    InputsSpec(h);
  }
}

=== FILE: render.dfy ===
/** Writing definitions back as text in the language of
    src/wfrcwflib/parse.py, and the round trips of the parser: parsing what is
    written gives back the values, arguments, steps, workflows and documents
    that were written. */
module Render {
  import opened Wrappers
  import opened Lexer
  import opened Ast
  import opened Parser
  import opened Document

  /** An argument value as written: the word itself, or `{ input name ext }`. */
  function ValueText(v: Value): string {
    match v
    case Text(w) => w
    case Port(c) => ConnectorText(c)
  }

  /** Values separated by single spaces. */
  function ValuesText(vs: seq<Value>): string
    decreases |vs|
  {
    if vs == [] then ""
    else if |vs| == 1 then ValueText(vs[0])
    else ValueText(vs[0]) + " " + ValuesText(vs[1..])
  }

  /** One argument line: the value, or the flag followed by its values. */
  function ArgumentText(a: Argument): string {
    match a
    case Positional(v) => ValueText(v)
    case Optional(flag, vs) => if vs == [] then flag else flag + " " + ValuesText(vs)
  }

  function ArgumentLines(args: seq<Argument>): (lines: seq<string>)
    ensures |lines| == |args|
    ensures forall i :: 0 <= i < |args| ==> lines[i] == ArgumentText(args[i])
  {
    seq(|args|, i requires 0 <= i < |args| => ArgumentText(args[i]))
  }

  /** The body of a step paragraph: the name line, the prog line, then one
      line per argument. */
  function StepText(s: Step): seq<string> {
    [s.name, s.prog] + ArgumentLines(s.args)
  }

  /** A connection line `from_step from_output -> to_step to_input`. */
  function ConnectionText(c: Connection): string {
    Unwords([c.fromStep, c.fromOutput, "->", c.toStep, c.toInput])
  }

  function ConnectionLines(cs: seq<Connection>): (lines: seq<string>)
    ensures |lines| == |cs|
    ensures forall i :: 0 <= i < |cs| ==> lines[i] == ConnectionText(cs[i])
  {
    seq(|cs|, i requires 0 <= i < |cs| => ConnectionText(cs[i]))
  }

  /** The body of a workflow paragraph: the name line, then one line per
      connection. */
  function WorkflowText(w: UnresolvedWorkflow): seq<string> {
    [w.name] + ConnectionLines(w.connections)
  }

  /** A whole paragraph, keyword included. */
  function DefinitionText(d: Definition): seq<string> {
    match d
    case StepDef(s) => ["step" + " " + s.name] + StepText(s)[1..]
    case WorkflowDef(w) => ["workflow" + " " + w.name] + WorkflowText(w)[1..]
  }

  function DefinitionParagraphs(ds: seq<Definition>): (ps: seq<seq<string>>)
    ensures |ps| == |ds|
    ensures forall i :: 0 <= i < |ds| ==> ps[i] == DefinitionText(ds[i])
  {
    seq(|ds|, i requires 0 <= i < |ds| => DefinitionText(ds[i]))
  }

  /** A document: the paragraphs separated by one blank line each. */
  function DocumentText(ds: seq<Definition>): seq<string> {
    Join(DefinitionParagraphs(ds))
  }

  // ------------------------------------------------ what the language can write

  /** A value the language can write: a word that does not open a connector,
      or a connector whose name and ext are words. */
  predicate WritableValue(v: Value) {
    match v
    case Text(w) => Word(w) && !StartsWith(w, '{')
    case Port(c) => Word(c.name) && Word(c.ext)
  }

  predicate WritableValues(vs: seq<Value>) {
    forall i :: 0 <= i < |vs| ==> WritableValue(vs[i])
  }

  /** A positional value must not read as a flag; a flag is a word that
      starts with `-`. */
  predicate WritableArgument(a: Argument) {
    match a
    case Positional(v) => WritableValue(v) && !(v.Text? && StartsWith(v.text, '-'))
    case Optional(flag, vs) => Word(flag) && StartsWith(flag, '-') && WritableValues(vs)
  }

  predicate WritableStep(s: Step) {
    Word(s.name) && Word(s.prog) && forall i :: 0 <= i < |s.args| ==> WritableArgument(s.args[i])
  }

  predicate WritableConnection(c: Connection) {
    Word(c.fromStep) && Word(c.fromOutput) && Word(c.toStep) && Word(c.toInput)
  }

  predicate WritableWorkflow(w: UnresolvedWorkflow) {
    Word(w.name) && forall i :: 0 <= i < |w.connections| ==> WritableConnection(w.connections[i])
  }

  predicate WritableDefinition(d: Definition) {
    match d
    case StepDef(s) => WritableStep(s)
    case WorkflowDef(w) => WritableWorkflow(w)
  }

  // ---------------------------------------------------------------- values

  /** A written value is not empty, starts with a non-space, and starts with
      `{` exactly when it is a connector. */
  lemma ValueTextStart(v: Value)
    requires WritableValue(v)
    ensures ValueText(v) != [] && !IsSpace(ValueText(v)[0])
    ensures StartsWith(ValueText(v), '{') <==> v.Port?
  {
    if v.Port? {
      assert ValueText(v)[0] == '{';
    }
  }

  lemma ValuesTextStart(vs: seq<Value>)
    requires vs != [] && WritableValues(vs)
    ensures ValuesText(vs) != [] && !IsSpace(ValuesText(vs)[0])
  {
    ValueTextStart(vs[0]);
    if |vs| > 1 {
      assert ValuesText(vs)[0] == ValueText(vs[0])[0];
    }
  }

  /** parse_argument_value reads back a written value and leaves the text
      after it. */
  lemma ValueTextParses(v: Value, gap: string, rest: string)
    requires WritableValue(v) && AllSpace(gap)
    requires rest != [] ==> gap != [] && !IsSpace(rest[0])
    ensures ParseArgumentValue(ValueText(v) + gap + rest) == Success((v, rest))
  {
    var line := ValueText(v) + gap + rest;
    ValueTextStart(v);
    assert line[0] == ValueText(v)[0];
    match v
    case Text(w) =>
      NextTokenOf(w, gap, rest);
    case Port(c) =>
      ParseConnectorText(c, gap, rest);
  }

  /** The values of an optional argument: values written with single spaces
      between them parse back to themselves, in order. */
  lemma {:induction false} ValuesOfText(vs: seq<Value>)
    requires WritableValues(vs)
    ensures ValuesOf(ValuesText(vs)) == Success(vs)
    decreases |vs|
  {
    if vs != [] {
      var tail := vs[1..];
      assert WritableValues(tail) by {
        assert forall i :: 0 <= i < |tail| ==> tail[i] == vs[i + 1];
      }
      ValuesOfText(tail);
      var rest := ValuesText(tail);
      var gap := if tail == [] then "" else " ";
      if tail != [] {
        ValuesTextStart(tail);
      }
      ValueTextParses(vs[0], gap, rest);
      assert ValueText(vs[0]) + gap + rest == ValuesText(vs);
      ValueTextStart(vs[0]);
      ValuesOfStep(ValuesText(vs), vs[0], rest, tail);
      assert [vs[0]] + tail == vs;
    }
  }

  /** One value parsed off the front, then the rest. */
  lemma ValuesOfStep(line: string, v: Value, rest: string, tail: seq<Value>)
    requires line != [] && ParseArgumentValue(line) == Success((v, rest))
    requires ValuesOf(rest) == Success(tail)
    ensures ValuesOf(line) == Success([v] + tail)
  {
  }

  // ------------------------------------------------------------- arguments

  /** parse_optional_argument reads back a flag followed by values, connectors
      among them, with single spaces between. */
  lemma OptionalOfText(flag: string, vs: seq<Value>)
    requires Word(flag) && StartsWith(flag, '-') && WritableValues(vs)
    ensures OptionalOf(ArgumentText(Optional(flag, vs))) == Success(Optional(flag, vs))
  {
    var rest := ValuesText(vs);
    if vs == [] {
      NextTokenOf(flag, "", "");
      assert flag + "" + "" == ArgumentText(Optional(flag, vs));
    } else {
      ValuesTextStart(vs);
      NextTokenOf(flag, " ", rest);
    }
    ValuesOfText(vs);
  }

  /** Each written argument line parses back, through parse_step's choice
      between optional and positional, to the argument written. */
  lemma ArgumentOfText(a: Argument)
    requires WritableArgument(a)
    ensures ArgumentOf(ArgumentText(a)) == Success(a)
  {
    var line := ArgumentText(a);
    match a
    case Positional(v) =>
      ValueTextStart(v);
      ValueTextParses(v, "", "");
      assert ValueText(v) + "" + "" == line;
      assert !StartsWith(line, '-');
    case Optional(flag, vs) =>
      OptionalOfText(flag, vs);
      assert line[0] == flag[0];
  }

  // ------------------------------------------------------------- paragraphs

  /** parse_step reads back a written step: name, prog and every argument, in
      order. */
  lemma StepOfText(s: Step)
    requires WritableStep(s)
    ensures StepOf(StepText(s)) == Success(s)
  {
    var lines := StepText(s);
    NextTokenOf(s.name, "", "");
    assert s.name + "" + "" == lines[0];
    NextTokenOf(s.prog, "", "");
    assert s.prog + "" + "" == lines[1];
    var body := lines[2..];
    assert body == ArgumentLines(s.args);
    forall i | 0 <= i < |body|
      ensures ArgumentOf(body[i]) == Success(s.args[i])
    {
      ArgumentOfText(s.args[i]);
    }
    MapResultSpec(body, ArgumentOf);
    assert MapResult(body, ArgumentOf).value == s.args;
  }

  /** A written connection line parses back to the connection. */
  lemma ConnectionOfText(c: Connection)
    requires WritableConnection(c)
    ensures ConnectionOf(ConnectionText(c)) == Success(c)
  {
    var ws := [c.fromStep, c.fromOutput, "->", c.toStep, c.toInput];
    assert Word("->");
    assert forall i :: 0 <= i < |ws| ==> Word(ws[i]);
    TokensOfUnwords(ws);
    ConnectionOfTokens(ConnectionText(c));
  }

  /** parse_workflow reads back a written workflow: its name and every
      connection, in order. */
  lemma WorkflowOfText(w: UnresolvedWorkflow)
    requires WritableWorkflow(w)
    ensures WorkflowOf(WorkflowText(w)) == Success(w)
  {
    var lines := WorkflowText(w);
    NextTokenOf(w.name, "", "");
    assert w.name + "" + "" == lines[0];
    var body := lines[1..];
    assert body == ConnectionLines(w.connections);
    forall i | 0 <= i < |body|
      ensures ConnectionOf(body[i]) == Success(w.connections[i])
    {
      ConnectionOfText(w.connections[i]);
    }
    MapResultSpec(body, ConnectionOf);
    assert MapResult(body, ConnectionOf).value == w.connections;
  }

  /** parse_paragraph reads back a written paragraph, keyword included. */
  lemma ParagraphOfText(d: Definition)
    requires WritableDefinition(d)
    ensures ParagraphOf(DefinitionText(d)) == Success(d)
  {
    assert AllSpace(" ");
    match d
    case StepDef(s) =>
      var lines := StepText(s);
      ParagraphOfStep(s.name, " ", lines[1..]);
      assert [s.name] + lines[1..] == lines;
      StepOfText(s);
    case WorkflowDef(w) =>
      var lines := WorkflowText(w);
      ParagraphOfWorkflow(w.name, " ", lines[1..]);
      assert [w.name] + lines[1..] == lines;
      WorkflowOfText(w);
  }

  // -------------------------------------------------------------- documents

  /** A written paragraph has lines, and none of them is empty. */
  lemma DefinitionTextGood(d: Definition)
    requires WritableDefinition(d)
    ensures GoodParagraph(DefinitionText(d))
  {
    var p := DefinitionText(d);
    forall i | 0 <= i < |p|
      ensures p[i] != []
    {
      if i > 0 {
        match d
        case StepDef(s) =>
          if i == 1 {
            assert p[i] == s.prog;
          } else {
            assert p[i] == ArgumentText(s.args[i - 2]);
            var a := s.args[i - 2];
            if a.Positional? {
              ValueTextStart(a.value);
            }
          }
        case WorkflowDef(w) =>
          var c := w.connections[i - 1];
          assert p[i] == ConnectionText(c);
          assert p[i][0] == c.fromStep[0];
      }
    }
  }

  /** Splitting and parsing a written document gives back its definitions:
      split_paragraphs recovers the paragraphs, and each paragraph parses to
      the definition written, so Document.Parse returns exactly ds. */
  lemma DocumentOfText(ds: seq<Definition>)
    requires forall i :: 0 <= i < |ds| ==> WritableDefinition(ds[i])
    ensures Paragraphs(DocumentText(ds)) == DefinitionParagraphs(ds)
    ensures forall i :: 0 <= i < |ds| ==> ParagraphOf(Paragraphs(DocumentText(ds))[i]) == Success(ds[i])
  {
    var ps := DefinitionParagraphs(ds);
    forall i | 0 <= i < |ps|
      ensures GoodParagraph(ps[i]) && ParagraphOf(ps[i]) == Success(ds[i])
    {
      DefinitionTextGood(ds[i]);
      ParagraphOfText(ds[i]);
    }
    ParagraphsOfJoin(ps);
  }
}

=== FILE: workflow.dfy ===
/** The Workflow class (src/wfrcwflib/workflow.py:71-145): a named graph of
    steps drawn from a registry, built up in place by connect, and the views
    its properties compute. */
module Workflows {
  import opened Wrappers
  import opened Ast
  import opened Graph
  import opened Queries

  class Workflow {
    const name: string
    const registry: Registry
    /** _active_steps */
    var active: set<string>
    /** The insertion order of connections_in's keys. */
    var keys: seq<Port>
    /** connections_in: (step, input) to the producing (step, output), or None. */
    var connectionsIn: map<Port, Option<Port>>

    /** The fields as a value. */
    function State(): State
      reads this
    {
      Graph.State(active, keys, connectionsIn)
    }

    ghost predicate Valid()
      reads this
    {
      WellFormed(State())
    }

    /** The invariant the queries rely on: on a registry keyed by step name,
        the state is Covered. Every update keeps it. */
    ghost predicate Sound()
      reads this
    {
      Keyed(registry) ==> Covered(registry, State())
    }

    /** __init__ (workflow.py:79-85): no active step and no entry. */
    constructor(name: string, registry: Registry)
      ensures this.name == name && this.registry == registry
      ensures State() == Empty() && Valid() && Sound()
    {
      this.name := name;
      this.registry := registry;
      active := {};
      keys := [];
      connectionsIn := map[];
    }

    /** connections_in[k] = v */
    method Assign(k: Port, v: Option<Port>)
      requires Valid()
      modifies this
      ensures State() == Put(old(State()), k, v) && Valid()
    {
      if k !in connectionsIn {
        keys := keys + [k];
      }
      connectionsIn := connectionsIn[k := v];
    }

    /** _add_step (workflow.py:92-97): seeds the inputs of an inactive step with
        None and activates it; an unknown name raises. */
    method AddStep(stepName: string) returns (r: Outcome<GraphError>)
      requires Valid()
      modifies this
      ensures Valid()
      ensures old(Sound()) ==> Sound()
      ensures Activated(registry, old(State()), stepName).Success? ==>
        r == Pass && State() == Activated(registry, old(State()), stepName).value
      ensures Activated(registry, old(State()), stepName).Failure? ==>
        r == Fail(Activated(registry, old(State()), stepName).error) && State() == old(State())
    {
      if Keyed(registry) && Covered(registry, State()) {
        ActivatedSpec(registry, State(), stepName);
      }
      if stepName in active {
        return Pass;
      }
      if stepName !in registry {
        return Fail(UnknownStep(stepName));
      }
      var step := registry[stepName];
      var inputs := InputNames(step);
      ghost var start := State();
      for i := 0 to |inputs|
        invariant Valid()
        invariant State() == Seed(start, step.name, inputs[..i])
      {
        assert inputs[..i + 1][..i] == inputs[..i];
        Assign((step.name, inputs[i]), None);
      }
      assert inputs[..|inputs|] == inputs;
      active := active + {step.name};
      return Pass;
    }

    /** connect (workflow.py:87-90): activates both steps, then records that
        to_input of to_step reads from_output of from_step. */
    method Connect(fromStep: string, fromOutput: string, toStep: string, toInput: string)
      returns (r: Outcome<GraphError>)
      requires Valid()
      modifies this
      ensures Valid()
      ensures old(Sound()) ==> Sound()
      ensures var (h, e) := Connected(registry, old(State()), Connection(fromStep, fromOutput, toStep, toInput));
        && State() == h
        && (e.None? ==> r == Pass)
        && (e.Some? ==> r == Fail(e.value))
    {
      if Keyed(registry) && Covered(registry, State()) {
        ConnectedSpec(registry, State(), Connection(fromStep, fromOutput, toStep, toInput));
      }
      r := AddStep(fromStep);
      if r.Fail? {
        return;
      }
      r := AddStep(toStep);
      if r.Fail? {
        return;
      }
      Assign((toStep, toInput), Some((fromStep, fromOutput)));
    }

    /** inputs (workflow.py:111-115): every entry still None, in dict order. */
    method Inputs() returns (ins: seq<Port>)
      requires Valid()
      ensures ins == InputsOf(State())
      ensures forall p :: p in ins <==> p in connectionsIn && connectionsIn[p] == None
      ensures Distinct(ins)
    {
      ins := [];
      for i := 0 to |keys|
        invariant ins == Unresolved(State(), i)
      {
        var k := keys[i];
        if connectionsIn[k].None? {
          ins := ins + [k];
        }
      }
      InputsSpec(State());
    }

    /** connections_out (workflow.py:99-109): a list per output port of the
        active steps, then every wired entry appended to its producer's list.
        An active step missing from the registry, or an entry naming an
        undeclared output, raises. */
    method ConnectionsOut() returns (r: Result<map<Port, seq<Port>>, GraphError>)
      requires Valid()
      ensures !(active <= registry.Keys) ==>
        r.Failure? && r.error.UnknownStep? && r.error.name in active && r.error.name !in registry
      ensures active <= registry.Keys ==> r == OutSpec(registry, State())
    {
      var res :- DeclaredOutputs();
      ghost var g := State();
      ghost var d := Declared(registry, active);
      ConsumerMapStart(g, d, res);
      for i := 0 to |keys|
        invariant Undeclared(g, d, i).None?
        invariant res == ConsumerMapUpTo(g, d, i)
      {
        var k := keys[i];
        var v := connectionsIn[k];
        ConsumerMapStep(g, d, i);
        if v.Some? {
          if v.value !in res {
            UndeclaredFound(g, d, i);
            return Failure(UnknownOutput(v.value));
          }
          res := res[v.value := res[v.value] + [k]];
        }
      }
      return Success(res);
    }

    /** The first half of connections_out (workflow.py:100-104): every output
        port declared by an active step, each with no consumers yet. */
    method DeclaredOutputs() returns (r: Result<map<Port, seq<Port>>, GraphError>)
      ensures !(active <= registry.Keys) ==>
        r.Failure? && r.error.UnknownStep? && r.error.name in active && r.error.name !in registry
      ensures active <= registry.Keys ==>
        r.Success? && r.value.Keys == Declared(registry, active) && forall p :: p in r.value ==> r.value[p] == []
    {
      var res: map<Port, seq<Port>> := map[];
      var todo := active;
      while todo != {}
        invariant todo <= active
        invariant active - todo <= registry.Keys
        invariant res.Keys == Declared(registry, active - todo)
        invariant forall p :: p in res ==> res[p] == []
        decreases |todo|
      {
        var s :| s in todo;
        if s !in registry {
          return Failure(UnknownStep(s));
        }
        var step := registry[s];
        var outs := Ast.Outputs(step);
        for j := 0 to |outs|
          invariant res.Keys == Declared(registry, active - todo) + OutputPorts(step.name, outs[..j])
          invariant forall p :: p in res ==> res[p] == []
        {
          OutputPortsStep(step.name, outs, j);
          res := res[(step.name, outs[j].name) := []];
        }
        assert outs[..|outs|] == outs;
        DeclaredAdd(registry, active - todo, s);
        RemoveOne(active, todo, s);
        todo := todo - {s};
      }
      return Success(res);
    }

    /** outputs (workflow.py:117-121): the output ports nothing reads from. */
    method Outputs() returns (r: Result<set<Port>, GraphError>)
      requires Valid()
      ensures !(active <= registry.Keys) ==>
        r.Failure? && r.error.UnknownStep? && r.error.name in active && r.error.name !in registry
      ensures active <= registry.Keys ==> match OutSpec(registry, State())
        case Failure(e) => r == Failure(e)
        case Success(m) => r == Success(OutputsOf(m))
      ensures r.Success? ==> forall p :: p in r.value <==>
        p in Declared(registry, active) && forall q :: q in connectionsIn ==> connectionsIn[q] != Some(p)
    {
      var m :- ConnectionsOut();
      var outs: set<Port> := {};
      var todo := m.Keys;
      while todo != {}
        invariant todo <= m.Keys
        invariant forall p :: p in outs <==> p in m && p !in todo && m[p] == []
        decreases |todo|
      {
        var p :| p in todo;
        if m[p] == [] {
          outs := outs + {p};
        }
        todo := todo - {p};
      }
      OutputsSpec(registry, State());
      assert outs == OutputsOf(m);
      return Success(outs);
    }

    /** dag (workflow.py:123-132): each active step mapped to the set of steps
        its inputs read from. */
    method Dag() returns (r: Result<map<string, set<string>>, GraphError>)
      requires Valid()
      ensures r == DagSpec(State())
      ensures Keyed(registry) && Sound() ==> r.Success?
    {
      if Keyed(registry) && Sound() {
        DagCovered(registry, State());
      }
      var graph: map<string, set<string>> := map s | s in active :: {};
      ghost var g := State();
      assert forall s :: Producers(g, s, 0) == {};
      assert graph == ProducerMapUpTo(g, 0);
      for i := 0 to |keys|
        invariant Stray(g, i).None?
        invariant graph == ProducerMapUpTo(g, i)
      {
        var dest := keys[i];
        var src := connectionsIn[dest];
        ProducerMapStep(g, i);
        if src.Some? {
          if dest.0 !in graph {
            StrayFound(g, i);
            return Failure(UnknownStep(dest.0));
          }
          graph := graph[dest.0 := graph[dest.0] + {src.value.0}];
        }
      }
      return Success(graph);
    }

    /** order (workflow.py:134-137): the steps in an order where every step
        follows the steps it reads from, or the cycle that prevents one. */
    method Order() returns (r: Result<seq<string>, GraphError>)
      requires Valid()
      ensures DagSpec(State()).Failure? ==> r == Failure(DagSpec(State()).error)
      ensures DagSpec(State()).Success? ==>
        var dag := DagSpec(State()).value;
        && (r.Success? ==> IsOrder(dag, r.value))
        && (r.Failure? ==> r.error.Cycle? && Stuck(dag, r.error.steps))
      ensures Keyed(registry) && Sound() ==>
        DagSpec(State()).Success? && Nodes(DagSpec(State()).value) == active
    {
      if Keyed(registry) && Sound() {
        DagNodesActive(registry, State());
      }
      var dag :- Dag();
      r := TopoSort(dag);
    }

    /** edges (workflow.py:139-145): (producing step, consuming step) per wired
        entry, in dict order. */
    method Edges() returns (es: seq<(string, string)>)
      requires Valid()
      ensures es == EdgesOf(State())
      ensures DagSpec(State()).Success? ==>
        forall a, b :: (a, b) in es <==> b in DagSpec(State()).value && a in DagSpec(State()).value[b]
    {
      es := [];
      for i := 0 to |keys|
        invariant es == EdgesUpTo(State(), i)
      {
        var k := keys[i];
        var v := connectionsIn[k];
        if v.Some? {
          es := es + [(v.value.0, k.0)];
        }
      }
      if DagSpec(State()).Success? {
        EdgesMatchDag(State());
      }
    }
  }

  /** The ports (step, o.name) for the connectors o. */
  function OutputPorts(step: string, outs: seq<Connector>): set<Port> {
    set o | o in outs :: (step, o.name)
  }

  lemma OutputPortsStep(step: string, outs: seq<Connector>, j: nat)
    requires j < |outs|
    ensures OutputPorts(step, outs[..j + 1]) == OutputPorts(step, outs[..j]) + {(step, outs[j].name)}
  {
    assert outs[..j + 1] == outs[..j] + [outs[j]];
  }

  /** Declaring one more registered step adds exactly its output ports. */
  lemma DeclaredAdd(reg: Registry, steps: set<string>, s: string)
    requires s in reg
    ensures Declared(reg, steps + {s}) == Declared(reg, steps) + OutputPorts(reg[s].name, Outputs(reg[s]))
  {
    assert StepPorts(reg[s]) == OutputPorts(reg[s].name, Outputs(reg[s]));
  }

  /** The loop of connections_out stops at the first undeclared producer. */
  lemma UndeclaredFound(g: State, d: set<Port>, i: nat)
    requires i < |g.keys| && Undeclared(g, d, i).None?
    requires Wired(g, g.keys[i]) && g.links[g.keys[i]].value !in d
    ensures Undeclared(g, d, |g.keys|) == Some(i)
  {
  }

  /** The loop of dag stops at the first wired entry of an inactive step. */
  lemma StrayFound(g: State, i: nat)
    requires i < |g.keys| && Stray(g, i).None?
    requires Wired(g, g.keys[i]) && g.keys[i].0 !in g.active
    ensures Stray(g, |g.keys|) == Some(i)
  {
  }

  /** One more key of the dag loop: a wired entry adds its producing step to
      the consuming step's set. */
  lemma ProducerMapStep(g: State, i: nat)
    requires i < |g.keys|
    ensures ProducerMapUpTo(g, i + 1) ==
      var k := g.keys[i];
      if Wired(g, k) && k.0 in g.active
      then ProducerMapUpTo(g, i)[k.0 := ProducerMapUpTo(g, i)[k.0] + {g.links[k].value.0}]
      else ProducerMapUpTo(g, i)
  {
    var k := g.keys[i];
    forall s | s in g.active
      ensures Producers(g, s, i + 1) ==
        Producers(g, s, i) + (if Wired(g, k) && k.0 == s then {g.links[k].value.0} else {})
    {
      if Wired(g, k) && k.0 == s {
        assert g.links[k].value.0 in Producers(g, s, i + 1);
      }
    }
    var m0 := ProducerMapUpTo(g, i);
    var m1 := ProducerMapUpTo(g, i + 1);
    var m := if Wired(g, k) && k.0 in g.active then m0[k.0 := m0[k.0] + {g.links[k].value.0}] else m0;
    assert m1.Keys == m.Keys;
    assert forall s :: s in m1 ==> m1[s] == m[s];
  }

  /** One more key of the second loop of connections_out: a wired entry is
      appended to its producer's list. */
  lemma ConsumerMapStep(g: State, d: set<Port>, i: nat)
    requires i < |g.keys|
    ensures ConsumerMapUpTo(g, d, i + 1) ==
      var k := g.keys[i];
      if Wired(g, k) && g.links[k].value in d
      then ConsumerMapUpTo(g, d, i)[g.links[k].value := ConsumerMapUpTo(g, d, i)[g.links[k].value] + [k]]
      else ConsumerMapUpTo(g, d, i)
  {
    var k := g.keys[i];
    forall p | p in d
      ensures Consumers(g, p, i + 1) ==
        Consumers(g, p, i) + (if Wired(g, k) && g.links[k].value == p then [k] else [])
    {
    }
    var m0 := ConsumerMapUpTo(g, d, i);
    var m1 := ConsumerMapUpTo(g, d, i + 1);
    var m := if Wired(g, k) && g.links[k].value in d then m0[g.links[k].value := m0[g.links[k].value] + [k]] else m0;
    assert m1.Keys == m.Keys;
    assert forall p :: p in m1 ==> m1[p] == m[p];
  }

  lemma RemoveOne(a: set<string>, t: set<string>, s: string)
    requires s in t && t <= a
    ensures a - t + {s} == a - (t - {s})
  {
  }

  /** resolve (workflow.py:71-75): a fresh workflow named after the unresolved
      one, connected tuple by tuple; the first error escapes. */
  method Resolve(u: UnresolvedWorkflow, registry: Registry) returns (r: Result<Workflow, GraphError>)
    ensures r.Success? <==> Resolved(registry, u.connections).Success?
    ensures r.Failure? ==> r.error == Resolved(registry, u.connections).error
    ensures r.Success? ==>
      && fresh(r.value)
      && r.value.name == u.name && r.value.registry == registry
      && r.value.Valid() && r.value.Sound()
      && r.value.State() == Resolved(registry, u.connections).value
  {
    var w := new Workflow(u.name, registry);
    var cs := u.connections;
    for i := 0 to |cs|
      invariant w.Valid() && w.name == u.name && w.registry == registry
      invariant Replayed(registry, Empty(), cs[..i]) == (w.State(), None)
    {
      var c := cs[i];
      var o := w.Connect(c.fromStep, c.fromOutput, c.toStep, c.toInput);
      ReplayedNext(registry, cs, i);
      if o.Fail? {
        ReplayedStops(registry, cs, i + 1);
        return Failure(o.error);
      }
    }
    assert cs[..|cs|] == cs;
    if Keyed(registry) {
      ResolvedSpec(registry, cs);
    }
    return Success(w);
  }

  /** One more connection replayed after an error-free prefix. */
  lemma ReplayedNext(reg: Registry, cs: seq<Connection>, i: nat)
    requires i < |cs|
    requires Replayed(reg, Empty(), cs[..i]).1.None?
    ensures Replayed(reg, Empty(), cs[..i + 1])
      == Connected(reg, Replayed(reg, Empty(), cs[..i]).0, cs[i])
  {
    assert cs[..i + 1][..i] == cs[..i];
  }

  /** Before any input is scanned, every declared output has no consumers. */
  lemma ConsumerMapStart(g: State, d: set<Port>, m: map<Port, seq<Port>>)
    requires m.Keys == d && forall p :: p in m ==> m[p] == []
    ensures m == ConsumerMapUpTo(g, d, 0)
  {
    var m0 := ConsumerMapUpTo(g, d, 0);
    assert m0.Keys == m.Keys;
    assert forall p :: p in m ==> m0[p] == Consumers(g, p, 0) == m[p];
  }

  /** Once a replay stops with an error, later connections change nothing. */
  lemma {:induction false} ReplayedStops(reg: Registry, cs: seq<Connection>, n: nat)
    requires n <= |cs|
    requires Replayed(reg, Empty(), cs[..n]).1.Some?
    ensures Replayed(reg, Empty(), cs) == Replayed(reg, Empty(), cs[..n])
    decreases |cs| - n
  {
    if n < |cs| {
      assert cs[..n + 1][..n] == cs[..n];
      ReplayedStops(reg, cs, n + 1);
    } else {
      assert cs[..n] == cs;
    }
  }
}

=== FILE: wrappers.dfy ===
/** Failure-compatible wrappers and the one sequence combinator the parsers share. */
module Wrappers {

  datatype Option<+T> = None | Some(value: T)

  datatype Result<+T, +E> = Success(value: T) | Failure(error: E) {
    predicate IsFailure() { Failure? }

    function PropagateFailure<U>(): Result<U, E>
      requires Failure?
    {
      Failure(error)
    }

    function Extract(): T
      requires Success?
    {
      value
    }
  }

  /** The outcome of an operation that returns nothing but may raise. */
  datatype Outcome<+E> = Pass | Fail(error: E)

  predicate Distinct<T(==)>(s: seq<T>) {
    forall i, j :: 0 <= i < j < |s| ==> s[i] != s[j]
  }

  /** Applies f to every element, left to right, stopping at the first failure:
      the shape of a Python loop that appends f(x) to a list and lets the first
      exception escape. */
  function MapResult<A, B, E>(xs: seq<A>, f: A -> Result<B, E>): Result<seq<B>, E>
  {
    if xs == [] then Success([])
    else
      var init :- MapResult(xs[..|xs| - 1], f);
      var y :- f(xs[|xs| - 1]);
      Success(init + [y])
  }

  /** The index of the first element on which f fails, if any. */
  function FirstFailure<A, B, E>(xs: seq<A>, f: A -> Result<B, E>): (i: nat)
    ensures i <= |xs|
    ensures forall j :: 0 <= j < i ==> f(xs[j]).Success?
    ensures i < |xs| ==> f(xs[i]).Failure?
  {
    if xs == [] || f(xs[0]).Failure? then 0 else 1 + FirstFailure(xs[1..], f)
  }

  /** MapResult succeeds exactly when f succeeds on every element; it then
      returns f's results in order, and otherwise the first failure's error. */
  lemma {:induction false} MapResultSpec<A, B, E>(xs: seq<A>, f: A -> Result<B, E>)
    ensures MapResult(xs, f).Success? <==> forall i :: 0 <= i < |xs| ==> f(xs[i]).Success?
    ensures MapResult(xs, f).Success? ==>
      |MapResult(xs, f).value| == |xs| &&
      forall i :: 0 <= i < |xs| ==> MapResult(xs, f).value[i] == f(xs[i]).value
    ensures MapResult(xs, f).Failure? ==>
      var k := FirstFailure(xs, f);
      k < |xs| && MapResult(xs, f).error == f(xs[k]).error
    decreases |xs|
  {
    if xs != [] {
      var init := xs[..|xs| - 1];
      MapResultSpec(init, f);
      FirstFailureOfPrefix(xs, f);
      if MapResult(init, f).Success? {
        forall i | 0 <= i < |init| ensures f(xs[i]) == f(init[i]) { }
      }
    }
  }

  /** Dropping the last element keeps the first failure unless it was the last one. */
  lemma {:induction false} FirstFailureOfPrefix<A, B, E>(xs: seq<A>, f: A -> Result<B, E>)
    requires xs != []
    ensures var k := FirstFailure(xs[..|xs| - 1], f);
      k < |xs| - 1 ==> FirstFailure(xs, f) == k
    ensures FirstFailure(xs[..|xs| - 1], f) == |xs| - 1 && f(xs[|xs| - 1]).Failure? ==>
      FirstFailure(xs, f) == |xs| - 1
  {
    var k := FirstFailure(xs[..|xs| - 1], f);
    var k' := FirstFailure(xs, f);
    assert forall j :: 0 <= j < |xs| - 1 ==> xs[..|xs| - 1][j] == xs[j];
  }

  /** Once a prefix fails, the whole sequence fails the same way: the first
      exception ends the loop. */
  lemma {:induction false} MapResultPrefixFailure<A, B, E>(xs: seq<A>, j: nat, f: A -> Result<B, E>)
    requires j <= |xs| && MapResult(xs[..j], f).Failure?
    ensures MapResult(xs, f) == MapResult(xs[..j], f)
    decreases |xs| - j
  {
    if j < |xs| {
      var init := xs[..|xs| - 1];
      assert init[..j] == xs[..j];
      MapResultPrefixFailure(init, j, f);
    } else {
      assert xs[..j] == xs;
    }
  }

  /** One more successful step of the loop extends the prefix's result. */
  lemma MapResultStep<A, B, E>(xs: seq<A>, j: nat, f: A -> Result<B, E>)
    requires j < |xs|
    ensures MapResult(xs[..j + 1], f) ==
      match MapResult(xs[..j], f)
      case Failure(e) => Failure(e)
      case Success(init) => if f(xs[j]).Failure? then Failure(f(xs[j]).error) else Success(init + [f(xs[j]).value])
  {
    assert xs[..j + 1][..j] == xs[..j];
  }
}
